=== FILE: README.md ===
# badminton-backend: a Dafny model of the data-access and request-decision core

This project models the core of a Go backend for a badminton training app. The backend signs users up and logs them in by account and password or by SMS code. It lets users edit their profile and returns per-day training summaries, which are seventeen counters per user and calendar day.

The model covers these layers:

- **Stores.** The MySQL tables behind gorm (`UserDao`, `SummaryDao`) and the Redis caches in front of them (`Redis`, `UserCache`, `SummaryCache`).
- **Repositories.** The cache-aside repositories and their row/domain conversions (`UserRepository`, `SummaryRepository`).
- **Services.** The user and SMS-code services (`UserService`, `CodeService`).
- **Web layer.**
  - The JWT login middleware (`LoginGate`).
  - The HTTP handlers' validation and outcome-to-code tables (`UserHandler`, `SummaryHandler`, with `Web` holding the shared codes).
  - The CORS origin predicate (`Cors`).

Shared vocabulary:

- **Results and errors.**
  - Go's `(value, error)` pairs are `Base.Ret`.
  - Every error the code tells apart with `errors.Is` is a `Base.Kind`.
- **Collaborator outcomes.** Each Redis command or SQL statement takes a `Base.Link`. `Up` means it reached the server. `Down(kind)` means it failed with that error before touching data.
- **Repository results.** A repository operation returns a `Base.Step`: its Go result, the new state of both stores, and the list of commands it sent. That list is what lets contracts say "no DAO read on a cache hit".
- **Time.**
  - User timestamps and summary creation and update times are `Clock.Instant` values, in nanoseconds on the Unix time line.
  - Summary dates are `Clock.DateTime` values, UTC wall-clock readings.
  - Cache time is a nanosecond clock `now` that the caller supplies.
- **Collaborators that are not shown become parameters:**
  - the code repository's verdicts
  - bcrypt's comparison
  - JWT parsing and the session check
  - `time.Parse`
  - the random draw and the UUID

## Model

| member | source | states |
|---|---|---|
| Rows.First | internal/repository/dao/user.go:56-72 | gorm `First` returns a row that matches, with no matching row having a smaller id, and reports none exactly when no row matches |
| Rows.Filter | internal/repository/dao/daily_summary.go:79 | a WHERE clause keeps exactly the rows that satisfy it, and no more rows than the table has |
| Redis.Get | internal/repository/cache/user.go:39-48 | GET succeeds exactly when the command reaches Redis and the key is live, and then returns the stored value; otherwise the error is the connection's own, or redis.Nil for a missing or expired key |
| Redis.Set | internal/repository/cache/user.go:56-56 | SET with a positive expiration: the connection's error or nil; on success the key holds the value until now + ttl and is live now; a failure changes nothing; every other key keeps its value |
| Redis.Del | internal/repository/cache/user.go:36-36 | DEL: the connection's error or nil; on success the key is gone, also when it was absent; a failure changes nothing; every other key keeps its value |
| UserCache.Key | internal/repository/cache/user.go:61-63 | the key starts with "user:info:" |
| UserCache.KeyInjective | internal/repository/cache/user.go:61-63 | two ids give the same key exactly when they are equal |
| UserCache.Get | internal/repository/cache/user.go:39-48 | Get succeeds only on a live key; a missing or expired key gives redis.Nil unchanged; a connection error is returned as it is; every error comes with the zero user |
| UserCache.Set | internal/repository/cache/user.go:50-57 | Set stores the user under its own id's key, expiring 15 minutes later, and no other key changes |
| UserCache.Delete | internal/repository/cache/user.go:35-37 | Delete removes the id's key and no other |
| UserCache.GetAfterSet | internal/repository/cache/user.go:28-33 | a user read back before the 15-minute expiration is the user that was set |
| UserCache.GetAfterExpiry | internal/repository/cache/user.go:28-33 | after 15 minutes a set user reads as redis.Nil |
| UserCache.GetAfterDelete | internal/repository/cache/user.go:35-48 | after Delete the id misses, and every other id reads as before |
| SummaryCache.Key | internal/repository/cache/daily_summary.go:54-56 | the key starts with "DailySummary:info:", then the namespace and '-' |
| SummaryCache.SameDaySameKey | internal/repository/cache/daily_summary.go:55-55 | two times on the same calendar day share a key |
| SummaryCache.KeyInjective | internal/repository/cache/daily_summary.go:54-56 | within a namespace, two keys are equal exactly when the user and the calendar day are equal |
| SummaryCache.DisjointFromUserKeys | internal/repository/cache/daily_summary.go:54-56 | no summary key is ever a user key |
| SummaryCache.Get | internal/repository/cache/daily_summary.go:30-39 | Get succeeds only on a live key; a missing or expired key gives redis.Nil unchanged; a connection error is returned as it is; every error comes with the zero summary |
| SummaryCache.Set | internal/repository/cache/daily_summary.go:41-48 | Set stores the summary under its (namespace, user, day) key, expiring 15 minutes later, and no other key changes |
| SummaryCache.Delete | internal/repository/cache/daily_summary.go:50-52 | Delete removes that one key and no other |
| SummaryCache.GetAfterSet | internal/repository/cache/daily_summary.go:23-48 | a summary read back with the same namespace, user and day before the expiration is the one that was set |
| SummaryCache.GetAfterDelete | internal/repository/cache/daily_summary.go:50-52 | after Delete that (user, day) misses, and every other (user, day) reads as before |
| UserDao.NewRow | internal/repository/dao/user.go:39-44 | the inserted row: the given id or the next auto-increment value, ctime = utime = now, the account, phone and password as sent with invalid NULL columns stored as NULL |
| UserDao.Insert | internal/repository/dao/user.go:39-54 | on success the table gains exactly the new row, with ctime = utime = now; it fails exactly on a clash with an existing row, reported as ErrUserDuplicate; other errors pass unchanged; a failure leaves the table alone |
| UserDao.InsertPreservesValid | internal/repository/dao/user.go:78-91 | inserting keeps ids, accounts and phones unique and NULL columns stored as NULL |
| UserDao.InsertDuplicateRefused | internal/repository/dao/user.go:13-14 | a second row with an existing non-NULL account or phone is refused with ErrUserDuplicate and changes nothing |
| UserDao.FindBy | internal/repository/dao/user.go:56-72 | a lookup returns a matching row, or ErrRecordNotFound exactly when no row matches, or the connection's error; every error comes with the zero row |
| UserDao.FindById | internal/repository/dao/user.go:68-72 | the row with that id, or not-found exactly when there is none |
| UserDao.FindByAccount | internal/repository/dao/user.go:56-60 | the row with that non-NULL account, or not-found exactly when there is none |
| UserDao.FindByPhone | internal/repository/dao/user.go:62-66 | the row with that non-NULL phone, or not-found exactly when there is none |
| UserDao.FindsUniqueRow | internal/repository/dao/user.go:56-72 | in a valid table every row is what its id, its account and its phone look up |
| UserDao.Merge | internal/repository/dao/user.go:74-76 | a non-zero-field update never changes the id and keeps a normalized row normalized |
| UserDao.MergeOverwritesOnlyNonZero | internal/repository/dao/user.go:74-76 | zero fields of the update leave the stored values; non-zero ones are written; the zero struct changes nothing |
| UserDao.MergeIdempotent | internal/repository/dao/user.go:74-76 | applying the same update twice equals applying it once |
| UserDao.UpdateNonZeroFields | internal/repository/dao/user.go:74-76 | on success exactly the rows with the id are merged and every other row is unchanged; a zero id gives ErrMissingWhereClause; a clash gives MySQL error 1062 untranslated; a failure changes nothing |
| UserDao.UpdatePreservesValid | internal/repository/dao/user.go:74-91 | an update keeps the table's unique keys and normalization |
| UserDao.UpdateIgnoresBirthday | internal/repository/dao/user.go:74-76 | two structs that differ only in birthday give the same outcome, and tables that differ only in birthdays |
| UserDao.UpdateKeepsOtherIds | internal/repository/dao/user.go:74-76 | an update of one id leaves what every other id reads unchanged |
| UserDao.InsertKeepsOtherIds | internal/repository/dao/user.go:39-54 | an insert leaves what every existing id reads unchanged |
| SummaryDao.FindByUserIDAndDate | internal/repository/dao/daily_summary.go:25-54 | only the counters are filled; with no row for the user and day the result is the zero row with a nil error; otherwise it holds the counters of the smallest-id row of that day, as gorm's First; a connection error comes with the zero row |
| SummaryDao.Peak | internal/repository/dao/daily_summary.go:62-62 | MAX is absent exactly for no rows, is at least every row's value, and is some row's value |
| SummaryDao.Selected | internal/repository/dao/daily_summary.go:79-79 | the range query reads exactly the user's rows whose day lies between start and end inclusive |
| SummaryDao.Totals | internal/repository/dao/daily_summary.go:60-78 | the SELECT list: MAX of the swing speed and SUM of every other counter, zero over no rows; TotalsOfFew, TotalsSnoc and AggregatePeak state its value |
| SummaryDao.AggregateByUserIDAndDateRange | internal/repository/dao/daily_summary.go:56-85 | one record, only the counters filled; errors come with the zero row |
| SummaryDao.TotalsOfFew | internal/repository/dao/daily_summary.go:60-78 | the totals over no rows are zero, and over one row are that row's counters |
| SummaryDao.TotalsSnoc | internal/repository/dao/daily_summary.go:60-78 | one more row adds its counters to every SUM and raises MAX to its speed if larger |
| SummaryDao.AggregateAfterInsert | internal/repository/dao/daily_summary.go:56-85 | a new row inside the range combines into the totals; a row outside it, or another user's, changes nothing |
| SummaryDao.AggregatePeak | internal/repository/dao/daily_summary.go:62-62 | the range's max speed is at least every selected row's speed and is one of them, not a sum |
| SummaryDao.OneDayRange | internal/repository/dao/daily_summary.go:48-79 | a range from a day to itself selects exactly that day's rows |
| SummaryDao.SelectedOneDay | internal/repository/dao/daily_summary.go:79-79 | with one row per user and day, a one-day range selects at most one row |
| SummaryDao.RangeOfOneDayIsTheDay | internal/repository/dao/daily_summary.go:25-85 | with one row per user and day, the aggregate over a single day equals the single-day lookup |
| UserRepository.Nullable | internal/repository/user.go:96-99 | a string becomes NULL exactly when it is empty |
| UserRepository.BirthdayColumn | internal/repository/user.go:107-110 | the intended birthday column: NULL exactly for the zero time, otherwise its Unix milliseconds |
| UserRepository.BirthdayColumnAsWritten | internal/repository/user.go:107-110 | the birthday column as written: valid exactly for a non-zero time, always holding the Unix milliseconds |
| UserRepository.DomainToEntityIntended | internal/repository/user.go:92-123 | id and password are copied; empty account and phone become NULL; ctime and utime stay zero; a zero birthday becomes NULL |
| UserRepository.DomainToEntityAsWritten | internal/repository/user.go:92-123 | the conversion as written never yields the zero birthday struct, and otherwise agrees with DomainToEntityIntended |
| UserRepository.EntityToDomain | internal/repository/user.go:125-143 | id and password are copied; ctime comes from milliseconds; utime is left zero; a NULL birthday reads as the zero time |
| UserRepository.DomainRoundTrip | internal/repository/user.go:92-143 | writing a user and reading it back loses only the birthday's sub-millisecond part, ctime and utime, with the conversion as written and with the corrected one |
| UserRepository.EntityRoundTrip | internal/repository/user.go:92-143 | reading a stored row and writing it back gives the row without its timestamps |
| UserRepository.CoherentLater | internal/repository/cache/user.go:28-33 | a cache that agrees with the table stays in agreement as time passes |
| UserRepository.FindById | internal/repository/user.go:66-82 | a hit returns the cached user with only a cache GET; the DAO is read exactly on a miss; a DAO success returns the stored user and sets the cache; a missing row gives not-found, a DAO connection error and a cache error other than redis.Nil are returned unchanged; any error returns the zero user and changes nothing; the table never changes |
| UserRepository.FindByIdAgreesWithStore | internal/repository/user.go:66-82 | with a coherent cache, FindById returns exactly what the table holds (or not-found) and keeps the cache coherent |
| UserRepository.SecondReadHits | internal/repository/user.go:66-82 | a read that missed and found the user is followed, within 15 minutes, by a cache-only read of the same user |
| UserRepository.WriteThenInvalidate | internal/repository/user.go:84-90 | the DAO is written first; its error is returned at once and touches nothing else; after DAO success the table is the DAO's and the key is deleted, the delete's error returned; a failed delete leaves the whole cache as it was; no other key or cached value changes |
| UserRepository.Update | internal/repository/user.go:84-90 | the same, for the struct domainToEntity builds as written: the DAO error or the delete's error is returned, the key is gone after a successful delete, a failed delete leaves the cache as it was, and every other key keeps its value |
| UserRepository.UpdateIntended | internal/repository/user.go:84-110 | with the corrected conversion the update makes the same calls, returns the same result and leaves the same cache as Update; the tables differ only in birthdays |
| UserRepository.UpdatePreservesCoherent | internal/repository/user.go:84-90 | when the cache DEL reaches Redis, an update keeps the table valid and the cache coherent, whatever the database answers |
| UserRepository.UpdateFailedDeleteLeavesStale | internal/repository/user.go:84-90 | when the database write succeeds and the DEL fails, its error is returned, the old live entry stays, and the cache is no longer coherent once the write changed the user |
| UserRepository.ReadAfterUpdate | internal/repository/user.go:66-110 | after a successful update the next read returns the stored row merged with the non-zero fields of the struct domainToEntity builds as written |
| UserRepository.Create | internal/repository/user.go:41-53 | Create makes exactly one DAO insert and does not touch the cache; with MySQL reachable it succeeds exactly when the new row clashes with no row, and fails with ErrUserDuplicate exactly on a clash; a connection error is returned unchanged |
| UserRepository.CreatedRow | internal/repository/user.go:41-53 | the inserted struct holds only the account, the phone (NULL when empty) and the password |
| UserRepository.CreatePreservesCoherent | internal/repository/user.go:41-53 | creating a user keeps the table valid and the cache coherent |
| UserRepository.FindByPhone | internal/repository/user.go:55-59 | one DAO read and no cache access; a found user has that phone and is a stored row; not-found exactly when no row has it |
| UserRepository.FindByAccount | internal/repository/user.go:61-64 | one DAO read and no cache access; a found user has that account and is a stored row; not-found exactly when no row has it |
| UserRepository.UpdateKeepsBirthday | internal/repository/user.go:84-110 | UpdateIntended with a zero birthday keeps every stored birthday |
| UserRepository.UpdateAsWrittenErasesBirthday | internal/repository/user.go:84-110 | Update with a zero birthday that reaches the cache delete has set the user's stored birthday to NULL |
| SummaryRepository.EntityToDomain | internal/repository/daily_summary.go:86-111 | id, user and all 17 counters are copied; the date is midnight of the stored day; the timestamps are read as Unix seconds |
| SummaryRepository.DomainToEntity | internal/repository/daily_summary.go:57-84 | id, user and all 17 counters are copied; the date keeps its calendar day; the timestamps become Unix seconds |
| SummaryRepository.DomainRoundTrip | internal/repository/daily_summary.go:57-111 | a summary written and read back loses only its date's time of day and its timestamps' sub-second parts |
| SummaryRepository.EntityRoundTrip | internal/repository/daily_summary.go:57-111 | a row read and written back is the same row |
| SummaryRepository.FindByUserIDAndDate | internal/repository/daily_summary.go:30-46 | a hit returns the cached summary with only a cache GET; the DAO is read exactly on a miss; a DAO success is returned and, when the SET reaches Redis, stored under the (namespace, user, day) key for 15 minutes, the all-zero summary of an empty day included; a missing row reads as zeros; a DAO connection error and a cache error other than redis.Nil are returned unchanged; errors return the zero summary and change nothing |
| SummaryRepository.FindByDayAgreesWithStore | internal/repository/daily_summary.go:30-46 | with a coherent cache, a day read returns what the table holds and keeps the cache coherent |
| SummaryRepository.DayReadShowsRow | internal/repository/daily_summary.go:30-46 | a day that has a stored row reads back exactly that row's counters |
| SummaryRepository.FindByUserIDAndDateRange | internal/repository/daily_summary.go:48-55 | exactly one DAO aggregate and no cache access; the error is the DAO's, unchanged; the counters are the aggregate's; errors give the zero summary |
| UserService.Signup | internal/service/user.go:39-46 | a hashing error returns before any insert; with MySQL reachable it succeeds exactly when the new row clashes with none and gives ErrUserDuplicate exactly on a clash; a connection error is returned unchanged; the stored row holds the hash and never the plaintext |
| UserService.SignupFreshAccountSucceeds | internal/service/user.go:39-46 | in a valid table, an account no row holds signs up: the table stays valid and the new row is the only one with that account |
| UserService.FindOrCreate | internal/service/user.go:49-66 | a lookup result other than not-found is returned as it is, without an insert; a failed create other than a duplicate gives the zero user with that error after two calls; otherwise the result is the second lookup's on the table the create left; a success has that phone |
| UserService.FindOrCreateSucceeds | internal/service/user.go:49-66 | with the database reachable and a non-empty phone, it succeeds and returns a stored row holding that phone |
| UserService.FindOrCreateIdempotent | internal/service/user.go:49-66 | a second call for the same phone returns the same user with one lookup and changes nothing |
| UserService.Login | internal/service/user.go:68-79 | the result is the user or ErrInvalidUserOrPassword with the zero user; success happens exactly when a row with that account exists and bcrypt accepts the password |
| UserService.LoginIff | internal/service/user.go:68-79 | for a stored account, login succeeds exactly when bcrypt accepts the password, and returns that row's user |
| UserService.UpdateNonSensitiveInfo | internal/service/user.go:81-87 | on success the user's rows are merged with the non-zero fields of the user with account, phone and password blanked, other rows are unchanged and the cache entry is gone; no row's account, phone or password ever changes |
| UserService.Profile | internal/service/user.go:89-91 | the table is never changed; a live cache entry is returned; on a miss the stored user is returned, or not-found when there is none |
| UserService.ProfileAgreesWithStore | internal/service/user.go:89-91 | with a coherent cache and both stores reachable, the profile is the stored user, or not-found |
| CodeService.Generate | internal/service/code.go:70-74 | the code is exactly 6 ASCII digits, reads back as the draw, and is never "999999" |
| CodeService.GenerateInjective | internal/service/code.go:70-74 | distinct draws give distinct codes |
| CodeService.Send | internal/service/code.go:38-54 | the SMS is sent only after the code is stored, with template 2044585 and the stored code; a store error returns with nothing sent; otherwise the gateway's error is returned |
| CodeService.Verify | internal/service/code.go:56-66 | too many attempts becomes (false, nil); every other verdict is returned unchanged |
| CodeService.VerifyAcceptsOnlyAcceptedCodes | internal/service/code.go:56-66 | Verify accepts exactly when the repository accepted without error |
| LoginGate.PublicPathsPass | internal/web/middleware/jwt_login.go:19-26 | exactly the five listed paths (signup, SMS code send, SMS login, login, token refresh) skip the token check, in both gates |
| LoginGate.GateAsWritten | internal/web/middleware/jwt_login.go:34-87 | public paths pass; the claims are admitted exactly when signature, expiry, User-Agent and session all pass; a valid token without an expiry panics |
| LoginGate.Gate | internal/web/middleware/jwt_login.go:34-87 | the corrected middleware never panics; public paths pass; the claims are admitted exactly when every check passes |
| LoginGate.MissingExpiryPanics | internal/web/middleware/jwt_login.go:59-71 | a signed token with no `exp` on a protected path panics as written, and gets 401 when corrected |
| LoginGate.GateAgreesWhenExpiryPresent | internal/web/middleware/jwt_login.go:49-85 | apart from that case the two gates decide alike |
| LoginGate.SessionCheckedLast | internal/web/middleware/jwt_login.go:49-83 | the session answer cannot change the verdict while an earlier check fails |
| UserHandler.WithoutFinalNewline | internal/web/user.go:16-22 | what the patterns' `$` compares against: the input with at most one final newline removed |
| UserHandler.IsPhone | internal/web/user.go:16-22 | the phone validator, the pattern `^1\d{10}$` matched as regexp2 does; IsPhoneIff states what it accepts |
| UserHandler.IsPassword | internal/web/user.go:16-22 | the password validator matched as regexp2 does; IsPasswordIff states what it accepts |
| UserHandler.IsPhoneIff | internal/web/user.go:16-22 | the phone pattern accepts exactly "1" and ten ASCII digits, optionally followed by one newline |
| UserHandler.ValidatorsWithoutNewline | internal/web/user.go:16-22 | for input without a final newline, both patterns are the plain rules |
| UserHandler.IsPasswordIff | internal/web/user.go:16-22 | a password is accepted exactly when it has at least eight characters from letters, digits and the listed specials, among them one of each kind, optionally followed by one newline |
| UserHandler.PasswordExamples | internal/web/user.go:16-22 | examples: "abc12345!" is accepted; no special, fewer than eight characters, or a space are refused |
| UserHandler.SendSMSLoginCode | internal/web/user.go:161-217 | an empty or malformed phone gives 14002 with no send; send success gives 10000, too-many gives 14003, any other error 25001 |
| UserHandler.SignUp | internal/web/user.go:219-278 | a mismatched confirmation or a password that breaks the rule gives 14002 with no service call; a duplicate gives 14002; other errors 25001; success 10000 |
| UserHandler.Login | internal/web/user.go:280-315 | wrong credentials give 14001 with no token; otherwise a login token is set for the user's id; 10000 exactly when that succeeds |
| UserHandler.LoginSMS | internal/web/user.go:106-159 | a verify error gives 25001 and a wrong code 14002, both with no lookup or token; find-or-create runs exactly on an accepted code; a token is set exactly when the user is found |
| UserHandler.RefreshToken | internal/web/user.go:62-104 | every reply has HTTP status 401; 10000 exactly when the token is valid, the session live and the new token set; the new token carries the refresh claims' ssid and id |
| UserHandler.EditedUser | internal/web/user.go:351-379 | the edited user's id comes from the token claims, and account, phone and password are empty |
| Text.Utf8Len | internal/web/user.go:351-351 | Go's `len` of a string, its length in UTF-8 bytes: between its character count and four times that |
| UserHandler.Edit | internal/web/user.go:332-392 | an AboutMe over 1024 bytes or a non-empty unparsable birthday gives 14002 with no call; otherwise one update with the claims' id and the parsed (or zero) birthday; success code 1000 |
| UserHandler.LoginTokenOnlyOnMatch | internal/service/user.go:68-79 | a login token is only ever set for the user stored under the account, and only when bcrypt accepts the password |
| UserHandler.LockoutReadsAsWrongCode | internal/service/code.go:56-66 | a locked-out phone gets 14002, and no user is looked up and no token is set |
| SummaryHandler.GetByDate | internal/web/daily_summary.go:33-69 | an unparsable date gives 14002 with no call; otherwise one read in the "DailySummary" namespace for the claims' user; a service error gives 25001; success gives 10000 with the result as data |
| SummaryHandler.GetByDateRange | internal/web/daily_summary.go:71-116 | either date unparsable gives 14002 with no call; otherwise the range is passed on as given; a service error gives 25001; success gives 10000 with the result as data |
| SummaryHandler.ReversedRangeGivesZeros | internal/web/daily_summary.go:101-102 | a reversed range is not refused; it reads 10000 with all counters zero |
| Cors.AllowOrigin | ioc/gin.go:56-62 | AllowOriginFunc: a "http://localhost" prefix or a "baidu.com" occurrence; AllowOriginIff states it over positions |
| Cors.AllowOriginIff | ioc/gin.go:56-62 | an origin is allowed exactly when it starts with "http://localhost" or has "baidu.com" at some position |
| Cors.LocalhostAllowed | ioc/gin.go:58-60 | every origin starting with "http://localhost" is allowed |
| Cors.CompanyDomainAllowed | ioc/gin.go:61-61 | every origin containing "baidu.com" anywhere is allowed |
| Cors.HttpsLocalhostRefused | ioc/gin.go:56-62 | a "https://localhost" origin is allowed exactly when "baidu.com" occurs in it |
| Cors.HttpsLocalhostWithoutBRefused | ioc/gin.go:56-62 | a "https://localhost" origin with no 'b' after the host is refused |
| Cors.NotContained | ioc/gin.go:61-61 | a string without a 'b' does not contain "baidu.com" |
| Text.ParseFormatInt | internal/repository/cache/user.go:62-62 | decimal formatting at any zero-padding width reads back as the same integer |
| Text.FormatIntInjective | internal/repository/cache/user.go:62-62 | two integers format alike exactly when they are equal |
| Text.ContainsIff | ioc/gin.go:61-61 | strings.Contains holds exactly when the substring occurs at some position |
| Text.NoFirstCharNoContains | ioc/gin.go:61-61 | a string in which the substring's first character never appears does not contain it |
| Clock.FormatDateOnlyInjective | internal/repository/cache/daily_summary.go:55-55 | two parsable dates print alike in "2006-01-02" exactly when they are equal |
| Clock.MilliRoundTrip | internal/repository/user.go:107-110 | going through Unix milliseconds keeps an instant to the millisecond |
| Clock.SecondRoundTrip | internal/repository/daily_summary.go:81-82 | going through Unix seconds keeps an instant to the second |

## Left out

- The code repository and code cache are not part of this model. Their attempt ceiling, send cooldown and single-use deletion are not visible, so `Store` and `Verify` outcomes are inputs.
- The JWT handler (`SetLoginToken`, `SetJWTToken`, `CheckSession`, `ClearToken`, `ExtractTokenString`) and token signing are not part of this model.
  - Parsing is an input: a parse error, or a token with a validity verdict and its claims.
  - The parser's own `exp` validation is part of that verdict.
  - The session check is an input error.
- Foreign functions are parameters or inputs:
  - bcrypt: a `matches` function, plus bcrypt's minimum hash length of 59 bytes, so the zero user's empty hash never matches.
  - `uuid.New`, as the `ssid` argument.
  - `rand.Intn`, as a draw in 0..999998.
  - `time.Parse`, as `parseDate`.
  - JSON encoding of cache values. A cached value is modelled as the value itself.
- SQL NULL from SUM/MAX over an empty range is modelled as 0, which is what the scan leaves in the struct's integer fields.
- Concurrency is left out: cache-stampede races, and a concurrent insert between FindOrCreate's lookup and create except through the duplicate-error input. Request cancellation and timeouts are left out too.
- Integers are unbounded. An int64 overflow of a SUM or of an id is not modelled.
- Time zones are left out. Summary dates are UTC wall-clock readings, and a SQL DATE comparison is modelled as a comparison with midnight of the stored day.
- The regexp2 validators are modelled over ASCII `\d`. Their `MatchString` error (a regexp timeout) is not modelled.
- Request binding (`ctx.Bind`) and its error replies are not modelled.
- The `Logout` and `Profile` handlers and route registration are left out. They only call the JWT handler and the service.
- internal/service/daily_summary.go only delegates to the repository, so it is folded into `SummaryRepository`.
- Engine setup in ioc/gin.go is left out: the CORS library's other settings, and the rate-limit and access-log middlewares. Wiring and logging are left out as well.
- UserRepository.SecondReadHits: stated only after a read that missed the cache. After a hit, the entry may expire sooner than 15 minutes.
- UserRepository.EntityRoundTrip: stated only for rows whose non-NULL strings are non-empty and whose birthday is not the zero time's millisecond value. Those are the rows the repository writes.
- UserService.FindOrCreate: the contract does not single out the empty phone. For it, the code creates a user whose phone is NULL and then fails with not-found, because NULL equals nothing.
- Unique indexes and collation: the model assumes a unique index on each of account and phone, compared byte for byte. The dao.User struct declares no index, and MySQL's default collations compare case-insensitively, so a live database may reject fewer or more rows as duplicates.
- UserRepository.UpdatePreservesCoherent: stated only when the cache DEL reaches Redis. After a failed DEL the old entry stays live for up to 15 minutes, as UpdateFailedDeleteLeavesStale shows.
- Redis.Set: only positive expirations are modelled. go-redis sends a plain SET without expiry for 0, and every caller passes 15 minutes.
- SummaryRepository.FindByDayAgreesWithStore: stated for dates at midnight, as the handlers parse them. Another time of day would cache the day's row under the day key without matching the DATE column.

## Findings

| source | as written | input that shows it | evidently intended | confidence | as-written member | corrected member |
|---|---|---|---|---|---|---|
| internal/repository/user.go:107-110 | a zero birthday becomes `NullInt64{Int64: UnixMilli(zero time), Valid: false}`, which is not the zero struct, so the non-zero-field update writes it, as NULL | an Edit request with an empty birthday for a user whose stored birthday is set | an unset birthday leaves the stored birthday alone, like every other zero field | medium, not executed | UserRepository.UpdateAsWrittenErasesBirthday | UserRepository.UpdateIntended |
| internal/web/middleware/jwt_login.go:59-71 | a token without `exp` yields a nil expiry with a nil error, and `Before` on it dereferences nil | a validly signed access token whose claims omit `exp`, sent to a protected path | such a token is refused with 401, as the unreadable-expiry branch intends | medium, not executed | LoginGate.MissingExpiryPanics | LoginGate.Gate |

=== FILE: base.dfy ===
/** Values shared by every layer: optional values, the error values the
    backend compares against, Go's (value, error) return pairs, and the
    outcome of one call to an external collaborator (Redis, MySQL). */
module Base {

  datatype Option<+T> = None | Some(value: T)

  /** The error values the backend tells apart with `errors.Is` or
      `errors.As`; everything else (network, JSON, bcrypt, SMS failures)
      is an `Opaque` error carrying an arbitrary tag. */
  datatype Kind =
    | RedisNil                // redis.Nil, re-exported as cache.ErrKeyNotExist
    | RecordNotFound          // gorm.ErrRecordNotFound = dao.ErrDataNotFound = repository.ErrUserNotFound
    | MissingWhereClause      // gorm.ErrMissingWhereClause, an update without a primary key
    | MySql(number: int)      // a *mysql.MySQLError with its server error number
    | UserDuplicate           // dao.ErrUserDuplicate
    | InvalidUserOrPassword   // service.ErrInvalidUserOrPassword
    | CodeSendTooMany         // repository.ErrCodeSendTooMany
    | CodeVerifyTooManyTimes  // repository.ErrCodeVerifyTooManyTimes
    | Opaque(tag: nat)

  /** A Go `error`: nil or a failure of some kind. */
  datatype Error = Nil | Fail(kind: Kind)

  /** A Go `(T, error)` result pair; the value is meaningful even when the
      error is not nil, because callers sometimes use it anyway. */
  datatype Ret<T> = Ret(value: T, err: Error)

  /** The new state of a collaborator after a write, with the error returned. */
  datatype Effect<S> = Effect(state: S, err: Error)

  /** What one command sent to a collaborator does on the wire: it reaches
      the backend (`Up`), or fails with the given error before touching
      any data (`Down`). */
  datatype Link = Up | Down(kind: Kind)

  /** A command a repository sends to Redis or MySQL, recorded so that
      contracts can say which collaborators an operation touched. */
  datatype Call =
    | CacheGet | CacheSet | CacheDelete
    | DaoInsert | DaoFindByPhone | DaoFindByAccount | DaoFindById | DaoUpdate
    | DaoFindByDay | DaoAggregate

  /** One repository operation: its Go result, the state of the stores
      afterwards, and the commands it sent, in order. */
  datatype Step<T, S> = Step(ret: Ret<T>, state: S, calls: seq<Call>)

  function Max(a: int, b: int): int
  {
    if a < b then b else a
  }
}

=== FILE: clock.dfy ===
/** Go `time.Time` values in the two shapes the backend uses them.

    An `Instant` is a point on the Unix time line in nanoseconds; user
    timestamps and summary creation/update times are only ever converted to
    and from Unix milliseconds or seconds, so the instant is all that matters.

    A `DateTime` is a UTC wall-clock reading (calendar date plus time of
    day); summary dates are only ever printed with the "2006-01-02" layout
    and compared with a SQL DATE column, both of which read the calendar
    fields. */
module Clock {
  import opened Text

  const NanosPerMilli: int := 1_000_000
  const NanosPerSecond: int := 1_000_000_000

  datatype Instant = Instant(unixNanos: int)

  /** The zero `time.Time`: January 1 of year 1, 00:00:00 UTC. */
  const ZeroInstant: Instant := Instant(-62_135_596_800 * NanosPerSecond)

  predicate IsZero(t: Instant)
  {
    t == ZeroInstant
  }

  /** The latest whole millisecond at or before `t`. */
  function TruncateMilli(t: Instant): (r: Instant)
    ensures r.unixNanos % NanosPerMilli == 0
    ensures r.unixNanos <= t.unixNanos < r.unixNanos + NanosPerMilli
  {
    Instant(t.unixNanos - t.unixNanos % NanosPerMilli)
  }

  /** The latest whole second at or before `t`. */
  function TruncateSecond(t: Instant): (r: Instant)
    ensures r.unixNanos % NanosPerSecond == 0
    ensures r.unixNanos <= t.unixNanos < r.unixNanos + NanosPerSecond
  {
    Instant(t.unixNanos - t.unixNanos % NanosPerSecond)
  }

  /** Time.UnixMilli: whole milliseconds since the epoch, rounded towards
      minus infinity (Go adds the non-negative sub-second part separately). */
  function UnixMilli(t: Instant): int
  {
    t.unixNanos / NanosPerMilli
  }

  /** time.UnixMilli(ms). */
  function FromUnixMilli(ms: int): Instant
  {
    Instant(ms * NanosPerMilli)
  }

  /** Time.Unix: whole seconds since the epoch, rounded towards minus infinity. */
  function Unix(t: Instant): int
  {
    t.unixNanos / NanosPerSecond
  }

  /** time.Unix(s, 0). */
  function FromUnix(s: int): Instant
  {
    Instant(s * NanosPerSecond)
  }

  /** Time.Before: `a` is strictly earlier than `b`. */
  predicate Before(a: Instant, b: Instant)
  {
    a.unixNanos < b.unixNanos
  }

  /** Going through Unix milliseconds keeps an instant up to the millisecond. */
  lemma MilliRoundTrip(t: Instant)
    ensures FromUnixMilli(UnixMilli(t)) == TruncateMilli(t)
  {
  }

  /** Going through Unix seconds keeps an instant up to the second. */
  lemma SecondRoundTrip(t: Instant)
    ensures FromUnix(Unix(t)) == TruncateSecond(t)
  {
  }

  lemma UnixMilliOfFromUnixMilli(ms: int)
    ensures UnixMilli(FromUnixMilli(ms)) == ms
  {
  }

  /** The zero time lies on a whole second, so truncation keeps it zero. */
  lemma ZeroInstantIsWhole()
    ensures TruncateMilli(ZeroInstant) == ZeroInstant
    ensures TruncateSecond(ZeroInstant) == ZeroInstant
  {
  }

  datatype Date = Date(year: int, month: int, day: int)

  /** A wall-clock reading in UTC; `nanoOfDay` is below 24 hours for
      readings that come from the time package. */
  datatype DateTime = DateTime(date: Date, nanoOfDay: nat)

  /** The zero `time.Time` as a wall-clock reading. */
  const ZeroDateTime: DateTime := DateTime(Date(1, 1, 1), 0)

  /** The start of the day `t` falls on: what a SQL DATE column keeps of it. */
  function Midnight(t: DateTime): DateTime
  {
    DateTime(t.date, 0)
  }

  predicate DateBefore(a: Date, b: Date)
  {
    a.year < b.year
    || (a.year == b.year && a.month < b.month)
    || (a.year == b.year && a.month == b.month && a.day < b.day)
  }

  /** Time order on wall-clock readings: `a` is not after `b`. */
  predicate NotAfter(a: DateTime, b: DateTime)
  {
    DateBefore(a.date, b.date) || (a.date == b.date && a.nanoOfDay <= b.nanoOfDay)
  }

  /** Nothing lies between the ends of a reversed range. */
  lemma NothingBetweenReversed(a: DateTime, b: DateTime, x: DateTime)
    requires NotAfter(b, a) && a != b
    ensures !(NotAfter(a, x) && NotAfter(x, b))
  {
  }

  /** The dates time.Parse accepts for the "2006-01-02" layout: four-digit
      years, months 1 to 12, days 1 to 31. */
  predicate ParsableDate(d: Date)
  {
    0 <= d.year <= 9999 && 1 <= d.month <= 12 && 1 <= d.day <= 31
  }

  /** Time.Format(time.DateOnly): year padded to four digits, month and day
      to two, joined by '-'. */
  function FormatDateOnly(d: Date): string
  {
    FormatInt(d.year, 4) + "-" + FormatInt(d.month, 2) + "-" + FormatInt(d.day, 2)
  }

  /** A parsable date prints as exactly ten characters. */
  lemma FormatDateOnlyLength(d: Date)
    requires ParsableDate(d)
    ensures |FormatDateOnly(d)| == 10
  {
    FormatIntFixedWidth(d.year, 4);
    FormatIntFixedWidth(d.month, 2);
    FormatIntFixedWidth(d.day, 2);
  }

  /** Distinct parsable dates print differently. */
  lemma FormatDateOnlyInjective(a: Date, b: Date)
    requires ParsableDate(a) && ParsableDate(b)
    ensures FormatDateOnly(a) == FormatDateOnly(b) <==> a == b
  {
    if FormatDateOnly(a) == FormatDateOnly(b) {
      FormatIntFixedWidth(a.year, 4);
      FormatIntFixedWidth(a.month, 2);
      FormatIntFixedWidth(a.day, 2);
      FormatIntFixedWidth(b.year, 4);
      FormatIntFixedWidth(b.month, 2);
      FormatIntFixedWidth(b.day, 2);
      var s, t := FormatDateOnly(a), FormatDateOnly(b);
      assert s[..4] == FormatInt(a.year, 4) && t[..4] == FormatInt(b.year, 4);
      assert s[5..7] == FormatInt(a.month, 2) && t[5..7] == FormatInt(b.month, 2);
      assert s[8..] == FormatInt(a.day, 2) && t[8..] == FormatInt(b.day, 2);
      FormatIntInjective(a.year, b.year, 4);
      FormatIntInjective(a.month, b.month, 2);
      FormatIntInjective(a.day, b.day, 2);
    }
  }
}

=== FILE: code_service.dfy ===
/** SMSCodeService (internal/service/code.go): one-time login codes. A
    six-digit code is drawn, stored through the code repository, then sent
    by SMS; verification hides the attempt lockout from callers. The code
    store and the SMS gateway are collaborators whose outcomes are given. */
module CodeService {
  import opened Base
  import opened Text

  /** The SMS template the code is sent with. */
  const CodeTemplateId: string := "2044585"

  /** rand.Intn(999999) draws from 0 to 999998. */
  const DrawBound: int := 999999

  /** generate: the draw printed with "%06d". */
  function Generate(draw: int): (code: string)
    requires 0 <= draw < DrawBound
    ensures |code| == 6 && AllDigits(code)
    ensures ParseInt(code) == Some(draw)
    ensures code != "999999"
  {
    assert Pow10(6) == 1000000;
    FormatIntFixedWidth(draw, 6);
    ParseFormatInt(draw, 6);
    assert ParseInt("999999") == Some(999999) by {
      assert "999999"[..5] == "99999" && "99999"[..4] == "9999" && "9999"[..3] == "999";
      assert "999"[..2] == "99" && "99"[..1] == "9" && "9"[..0] == "";
    }
    FormatInt(draw, 6)
  }

  /** Distinct draws give distinct codes. */
  lemma GenerateInjective(a: int, b: int)
    requires 0 <= a < DrawBound && 0 <= b < DrawBound
    ensures Generate(a) == Generate(b) <==> a == b
  {
  }

  /** The message handed to the SMS gateway. */
  datatype Sms = Sms(template: string, args: seq<string>, phone: string)

  /** What Send did: its error, the code it stored, the message it sent. */
  datatype SendOutcome = SendOutcome(err: Error, stored: Option<string>, sent: Option<Sms>)

  /** SMSCodeService.Send: stores the code first (`store` is the code
      repository's answer, e.g. ErrCodeSendTooMany) and sends the SMS only
      once the code is stored; the gateway's error is returned. */
  function Send(phone: string, draw: int, store: Error, gateway: Error): (o: SendOutcome)
    requires 0 <= draw < DrawBound
    ensures o.sent.Some? ==> o.stored.Some? && o.sent.value == Sms(CodeTemplateId, [o.stored.value], phone)
    ensures o.stored.Some? ==> o.stored.value == Generate(draw)
    ensures store != Nil ==> o == SendOutcome(store, None, None)
    ensures store == Nil ==> o.sent.Some? && o.err == gateway
    ensures o.err == Nil <==> store == Nil && gateway == Nil
  {
    var code := Generate(draw);
    if store != Nil then SendOutcome(store, None, None)
    else SendOutcome(gateway, Some(code), Some(Sms(CodeTemplateId, [code], phone)))
  }

  /** SMSCodeService.Verify: the repository's verdict, except that too many
      attempts reads as a plain mismatch with no error. */
  function Verify(verdict: Ret<bool>): (r: Ret<bool>)
    ensures r.err != Fail(CodeVerifyTooManyTimes)
    ensures verdict.err == Fail(CodeVerifyTooManyTimes) ==> r == Ret(false, Nil)
    ensures verdict.err != Fail(CodeVerifyTooManyTimes) ==> r == verdict
  {
    if verdict.err == Fail(CodeVerifyTooManyTimes) then Ret(false, Nil) else verdict
  }

  /** A code is accepted only when the repository accepted it without error. */
  lemma VerifyAcceptsOnlyAcceptedCodes(verdict: Ret<bool>)
    ensures Verify(verdict) == Ret(true, Nil) <==> verdict == Ret(true, Nil)
  {
  }
}

=== FILE: cors.dfy ===
/** The CORS origin filter configured in ioc/gin.go: requests from a local
    development origin or from the company's domain are allowed. */
module Cors {
  import opened Text

  const LocalPrefix: string := "http://localhost"
  const CompanyDomain: string := "baidu.com"

  /** AllowOriginFunc. */
  predicate AllowOrigin(origin: string)
  {
    HasPrefix(origin, LocalPrefix) || Contains(origin, CompanyDomain)
  }

  /** An origin is allowed exactly when it starts with "http://localhost"
      or has "baidu.com" at some position. */
  lemma AllowOriginIff(origin: string)
    ensures AllowOrigin(origin) <==>
      OccursAt(origin, LocalPrefix, 0) || exists i :: OccursAt(origin, CompanyDomain, i)
  {
    ContainsIff(origin, CompanyDomain);
  }

  /** Every origin under "http://localhost" is allowed, whatever follows. */
  lemma LocalhostAllowed(rest: string)
    ensures AllowOrigin(LocalPrefix + rest)
  {
    assert (LocalPrefix + rest)[..|LocalPrefix|] == LocalPrefix;
  }

  /** An origin with "baidu.com" anywhere in it is allowed. */
  lemma CompanyDomainAllowed(before: string, after: string)
    ensures AllowOrigin(before + CompanyDomain + after)
  {
    var s := before + CompanyDomain + after;
    ContainsIff(s, CompanyDomain);
    assert s[|before|..|before| + |CompanyDomain|] == CompanyDomain;
    assert OccursAt(s, CompanyDomain, |before|);
  }

  /** Localhost over HTTPS does not pass the localhost test: such an origin
      is allowed exactly when "baidu.com" occurs in it. */
  lemma HttpsLocalhostRefused(rest: string)
    ensures AllowOrigin("https://localhost" + rest) <==> Contains("https://localhost" + rest, CompanyDomain)
  {
    var s := "https://localhost" + rest;
    assert s[4] == 's' != LocalPrefix[4];
  }

  /** In particular it is refused when nothing after the host has a 'b'. */
  lemma HttpsLocalhostWithoutBRefused(rest: string)
    requires forall i :: 0 <= i < |rest| ==> rest[i] != 'b'
    ensures !AllowOrigin("https://localhost" + rest)
  {
    var s := "https://localhost" + rest;
    HttpsLocalhostRefused(rest);
    forall i | 0 <= i < |s| ensures s[i] != 'b' {
      if i >= 17 { assert s[i] == rest[i - 17]; }
    }
    NotContained(s);
  }

  /** A string with no 'b' contains no "baidu.com". */
  lemma NotContained(s: string)
    requires forall i :: 0 <= i < |s| ==> s[i] != 'b'
    ensures !Contains(s, CompanyDomain)
  {
    assert CompanyDomain[0] == 'b';
    NoFirstCharNoContains(s, CompanyDomain);
  }
}

=== FILE: domain.dfy ===
/** The domain records the services and handlers pass around
    (internal/domain/user.go, internal/domain/daily_summary.go) and the JWT
    claims the login middleware decodes (internal/web/jwt/types.go). */
module Domain {
  import opened Base
  import opened Clock

  datatype User = User(
    id: int,
    username: string,
    account: string,
    password: string,
    phone: string,
    nickname: string,
    weightKg: int,
    heightCm: int,
    birthday: Instant,
    aboutMe: string,
    ctime: Instant,
    utime: Instant)

  /** `domain.User{}`. */
  const ZeroUser: User := User(0, "", "", "", "", "", 0, 0, ZeroInstant, "", ZeroInstant, ZeroInstant)

  /** One user's training totals for one day: 17 counters. */
  datatype DailySummary = DailySummary(
    id: int,
    userId: int,
    date: DateTime,
    duration: int,
    maxSpeed: int,
    totalSwings: int,
    rotation: int,
    forehandClear: int,
    backhandClear: int,
    forehandLift: int,
    backhandLift: int,
    forehandNet: int,
    backhandNet: int,
    forehandSmash: int,
    backhandSmash: int,
    forehandDrop: int,
    backhandDrop: int,
    forehandDrive: int,
    backhandDrive: int,
    pickupCount: int,
    createdAt: Instant,
    updatedAt: Instant)

  /** `domain.DailySummary{}`. */
  const ZeroSummary: DailySummary := DailySummary(
    0, 0, ZeroDateTime,
    0, 0, 0, 0, 0, 0, 0, 0, 0, 0, 0, 0, 0, 0, 0, 0, 0,
    ZeroInstant, ZeroInstant)

  /** The claims of an access token; `expiresAt` is the registered `exp`
      claim, absent when the token does not carry one. */
  datatype UserClaims = UserClaims(id: int, userAgent: string, ssid: string, expiresAt: Option<Instant>)

  /** The claims of a refresh token. */
  datatype RefreshClaims = RefreshClaims(id: int, ssid: string, expiresAt: Option<Instant>)
}

=== FILE: login_gate.dfy ===
/** The JWT login middleware (internal/web/middleware/jwt_login.go): every
    request outside a fixed set of public paths must carry a validly signed
    access token that has not expired, was issued to the same User-Agent
    and belongs to a live session. Token parsing and the session check are
    collaborators whose answers are given. */
module LoginGate {
  import opened Base
  import opened Clock
  import opened Domain

  /** The paths that need no token. */
  const PublicPaths: set<string> := {
    "/api/v1/user/signup",
    "/api/v1/user/login_sms/code/send",
    "/api/v1/user/login_sms",
    "/api/v1/user/login",
    "/api/v1/user/refresh_token"
  }

  /** What jwt.ParseWithClaims made of the token string: an error, or a
      token with its signature verdict and the decoded claims. */
  datatype Parsed = ParseError | Parsed(valid: bool, claims: UserClaims)

  /** What the middleware does with the request. */
  datatype Verdict =
    | Pass                    // public path: the chain goes on, no "user" in the context
    | Admit(claims: UserClaims) // "user" is set to the claims and the chain goes on
    | Abort401                // AbortWithStatus(http.StatusUnauthorized)
    | Panic                   // a nil pointer is dereferenced

  /** Every check up to the User-Agent comparison succeeds. */
  predicate TokenAccepted(parsed: Parsed, userAgent: string, now: Instant)
  {
    && parsed.Parsed? && parsed.valid
    && parsed.claims.expiresAt.Some?
    && !Before(parsed.claims.expiresAt.value, now)
    && userAgent == parsed.claims.userAgent
  }

  /** The middleware as written. GetExpirationTime returns a nil
      *NumericDate with a nil error when the token has no `exp` claim, and
      calling Before on it dereferences nil. `session` is CheckSession's
      answer for the claims' ssid. */
  function GateAsWritten(path: string, parsed: Parsed, userAgent: string, now: Instant, session: Error): (v: Verdict)
    ensures path in PublicPaths <==> v == Pass
    ensures v.Admit? <==> path !in PublicPaths && TokenAccepted(parsed, userAgent, now) && session == Nil
    ensures v.Admit? ==> v.claims == parsed.claims
    ensures v == Panic <==> path !in PublicPaths && parsed.Parsed? && parsed.valid && parsed.claims.expiresAt.None?
  {
    if path in PublicPaths then Pass
    else if parsed.ParseError? || !parsed.valid then Abort401
    else if parsed.claims.expiresAt.None? then Panic
    else if Before(parsed.claims.expiresAt.value, now) then Abort401
    else if userAgent != parsed.claims.userAgent then Abort401
    else if session != Nil then Abort401
    else Admit(parsed.claims)
  }

  /** Exactly the five listed paths skip the token, whatever the request
      carries; "/api/v1/user/profile" and "/api/v1/user/edit" are not among them. */
  lemma PublicPathsPass(path: string, parsed: Parsed, userAgent: string, now: Instant, session: Error)
    ensures GateAsWritten(path, parsed, userAgent, now, session) == Pass <==>
      path == "/api/v1/user/signup" || path == "/api/v1/user/login_sms/code/send" || path == "/api/v1/user/login_sms"
      || path == "/api/v1/user/login" || path == "/api/v1/user/refresh_token"
    ensures Gate(path, parsed, userAgent, now, session) == Pass <==> GateAsWritten(path, parsed, userAgent, now, session) == Pass
  {
  }

  /** The middleware as its comments intend: a token without an expiry is
      refused like one whose expiry cannot be read. */
  function Gate(path: string, parsed: Parsed, userAgent: string, now: Instant, session: Error): (v: Verdict)
    ensures v != Panic
    ensures path in PublicPaths <==> v == Pass
    ensures v.Admit? <==> path !in PublicPaths && TokenAccepted(parsed, userAgent, now) && session == Nil
    ensures v.Admit? ==> v.claims == parsed.claims
  {
    if path in PublicPaths then Pass
    else if parsed.ParseError? || !parsed.valid then Abort401
    else if parsed.claims.expiresAt.None? then Abort401
    else if Before(parsed.claims.expiresAt.value, now) then Abort401
    else if userAgent != parsed.claims.userAgent then Abort401
    else if session != Nil then Abort401
    else Admit(parsed.claims)
  }

  /** A validly signed token without `exp` on a protected path crashes the
      middleware as written, while the corrected gate answers 401. */
  lemma MissingExpiryPanics(path: string, claims: UserClaims, userAgent: string, now: Instant, session: Error)
    requires path !in PublicPaths && claims.expiresAt.None?
    ensures GateAsWritten(path, Parsed(true, claims), userAgent, now, session) == Panic
    ensures Gate(path, Parsed(true, claims), userAgent, now, session) == Abort401
  {
  }

  /** Whenever the token has an expiry, or is not even validly parsed, the
      corrected gate decides as the middleware as written does. */
  lemma GateAgreesWhenExpiryPresent(path: string, parsed: Parsed, userAgent: string, now: Instant, session: Error)
    requires !(parsed.Parsed? && parsed.valid && parsed.claims.expiresAt.None?)
    ensures Gate(path, parsed, userAgent, now, session) == GateAsWritten(path, parsed, userAgent, now, session)
  {
  }

  /** The session store is consulted last: while an earlier check fails,
      its answer cannot change the verdict. */
  lemma SessionCheckedLast(path: string, parsed: Parsed, userAgent: string, now: Instant, s1: Error, s2: Error)
    requires path in PublicPaths || !TokenAccepted(parsed, userAgent, now)
    ensures Gate(path, parsed, userAgent, now, s1) == Gate(path, parsed, userAgent, now, s2)
  {
  }
}

=== FILE: redis.dfy ===
/** Redis as the caches use it: a map from key strings to values that
    expire at a given instant (nanoseconds on the Unix time line), read
    with GET, written with SET and an expiration, removed with DEL. */
module Redis {
  import opened Base

  datatype Entry<V> = Entry(value: V, expiresAt: int)

  type Keyspace<V> = map<string, Entry<V>>

  /** `key` holds a value that has not expired at `now`. */
  predicate Live<V>(ks: Keyspace<V>, key: string, now: int)
  {
    key in ks && now < ks[key].expiresAt
  }

  /** GET: the live value, redis.Nil when the key is absent or expired, or
      the error of a command that did not reach the server. */
  function Get<V>(ks: Keyspace<V>, key: string, now: int, link: Link, zero: V): (r: Ret<V>)
    ensures r.err == Nil <==> link.Up? && Live(ks, key, now)
    ensures r.err == Nil ==> r.value == ks[key].value
    ensures link.Down? ==> r.err == Fail(link.kind)
    ensures link.Up? && !Live(ks, key, now) ==> r.err == Fail(RedisNil)
  {
    if link.Down? then Ret(zero, Fail(link.kind))
    else if Live(ks, key, now) then Ret(ks[key].value, Nil)
    else Ret(zero, Fail(RedisNil))
  }

  /** SET key value with a positive expiration of `ttl` nanoseconds (go-redis
      sends a whole number of seconds as EX, 15 minutes as EX 900). */
  function Set<V>(ks: Keyspace<V>, key: string, v: V, ttl: int, now: int, link: Link): (e: Effect<Keyspace<V>>)
    requires 0 < ttl
    ensures e.err == (if link.Up? then Nil else Fail(link.kind))
    ensures e.err == Nil ==> key in e.state && e.state[key] == Entry(v, now + ttl) && Live(e.state, key, now)
    ensures e.err != Nil ==> e.state == ks
    ensures forall k :: k != key ==> (k in e.state <==> k in ks) && (k in ks ==> e.state[k] == ks[k])
  {
    if link.Down? then Effect(ks, Fail(link.kind)) else Effect(ks[key := Entry(v, now + ttl)], Nil)
  }

  /** DEL key; deleting an absent key is not an error. */
  function Del<V>(ks: Keyspace<V>, key: string, link: Link): (e: Effect<Keyspace<V>>)
    ensures e.err == (if link.Up? then Nil else Fail(link.kind))
    ensures e.err == Nil ==> key !in e.state
    ensures e.err != Nil ==> e.state == ks
    ensures forall k :: k != key ==> (k in e.state <==> k in ks) && (k in ks ==> e.state[k] == ks[k])
  {
    if link.Down? then Effect(ks, Fail(link.kind)) else Effect(ks - {key}, Nil)
  }
}

=== FILE: rows.dfy ===
/** Row selection shared by the two tables: gorm's `First` returns the
    matching row with the smallest primary key. */
module Rows {
  import opened Base

  /** The row of `rows` that satisfies `keep` and has the least `id`
      (the earliest such row on ties), or None when no row satisfies `keep`. */
  function First<R>(rows: seq<R>, id: R -> int, keep: R -> bool): (r: Option<R>)
    ensures r.Some? ==> r.value in rows && keep(r.value)
    ensures r.Some? ==> forall x :: x in rows && keep(x) ==> id(r.value) <= id(x)
    ensures r.None? <==> forall x :: x in rows ==> !keep(x)
    decreases |rows|
  {
    if |rows| == 0 then None
    else
      var rest := First(rows[1..], id, keep);
      assert forall x :: x in rows ==> x == rows[0] || x in rows[1..];
      if keep(rows[0]) && (rest.None? || id(rows[0]) <= id(rest.value)) then Some(rows[0])
      else rest
  }

  /** When exactly one row is kept, `First` finds that row. */
  lemma FirstOfUnique<R>(rows: seq<R>, id: R -> int, keep: R -> bool, x: R)
    requires x in rows && keep(x)
    requires forall y :: y in rows && keep(y) ==> y == x
    ensures First(rows, id, keep) == Some(x)
  {
  }

  /** The rows that satisfy `keep`, in table order: a WHERE clause. */
  function Filter<R>(rows: seq<R>, keep: R -> bool): (s: seq<R>)
    ensures |s| <= |rows|
    ensures forall x :: x in s ==> x in rows && keep(x)
    ensures forall x :: x in rows && keep(x) ==> x in s
    ensures (forall x :: x in rows ==> !keep(x)) ==> s == []
    decreases |rows|
  {
    if |rows| == 0 then []
    else
      var init := rows[..|rows| - 1];
      assert forall x :: x in rows ==> x in init || x == rows[|rows| - 1];
      Filter(init, keep) + (if keep(rows[|rows| - 1]) then [rows[|rows| - 1]] else [])
  }

  /** Appending a row to the table appends it to the selection exactly when it is kept. */
  lemma FilterSnoc<R>(rows: seq<R>, keep: R -> bool, r: R)
    ensures Filter(rows + [r], keep) == Filter(rows, keep) + (if keep(r) then [r] else [])
  {
    assert (rows + [r])[..|rows|] == rows;
  }
}

=== FILE: summary_cache.dfy ===
/** The daily-summary cache (internal/repository/cache/daily_summary.go):
    summaries stored in Redis under
    "DailySummary:info:{biz}-{userID}-{YYYY-MM-DD}" for 15 minutes. */
module SummaryCache {
  import opened Base
  import opened Text
  import opened Clock
  import opened Domain
  import Redis
  import UserCache

  /** time.Minute * 15, in nanoseconds. */
  const Expiration: int := 15 * 60 * NanosPerSecond

  const KeyPrefix: string := "DailySummary:info:"

  /** fmt.Sprintf("DailySummary:info:%s-%d-%s", biz, userID,
      date.Format(time.DateOnly)): only the calendar day of `date` is used. */
  function Key(biz: string, userId: int, date: DateTime): (k: string)
    ensures HasPrefix(k, KeyPrefix + biz + "-")
  {
    KeyPrefix + biz + "-" + FormatInt(userId, 0) + "-" + FormatDateOnly(date.date)
  }

  /** Two instants on the same calendar day share a key. */
  lemma SameDaySameKey(biz: string, userId: int, a: DateTime, b: DateTime)
    requires a.date == b.date
    ensures Key(biz, userId, a) == Key(biz, userId, b)
  {
  }

  /** Within one namespace, distinct (user, calendar day) pairs give distinct
      keys, for the days time.Parse can produce. */
  lemma KeyInjective(biz: string, u1: int, d1: DateTime, u2: int, d2: DateTime)
    requires ParsableDate(d1.date) && ParsableDate(d2.date)
    ensures Key(biz, u1, d1) == Key(biz, u2, d2) <==> u1 == u2 && d1.date == d2.date
  {
    var p := KeyPrefix + biz + "-";
    var s1, s2 := FormatInt(u1, 0), FormatInt(u2, 0);
    var f1, f2 := FormatDateOnly(d1.date), FormatDateOnly(d2.date);
    FormatDateOnlyLength(d1.date);
    FormatDateOnlyLength(d2.date);
    assert Key(biz, u1, d1) == (p + s1 + "-") + f1;
    assert Key(biz, u2, d2) == (p + s2 + "-") + f2;
    if Key(biz, u1, d1) == Key(biz, u2, d2) {
      assert |p + s1 + "-"| == |p + s2 + "-"|;
      SplitConcat(p + s1 + "-", f1, p + s2 + "-", f2);
      SplitConcat(p + s1, "-", p + s2, "-");
      SplitConcat(p, s1, p, s2);
      FormatIntInjective(u1, u2, 0);
      FormatDateOnlyInjective(d1.date, d2.date);
    }
  }

  /** No summary key is a user key, so the two caches never overwrite
      each other's entries in the shared Redis. */
  lemma DisjointFromUserKeys(biz: string, userId: int, date: DateTime, id: int)
    ensures Key(biz, userId, date) != UserCache.Key(id)
  {
    assert Key(biz, userId, date)[0] == 'D';
    assert UserCache.Key(id)[0] == 'u';
  }

  /** RedisDailySummaryCache.Get: the cached summary, redis.Nil unchanged
      when nothing live is stored, or the command's error; the zero summary
      accompanies every error. */
  function Get(c: Redis.Keyspace<DailySummary>, biz: string, userId: int, date: DateTime, now: int, link: Link): (r: Ret<DailySummary>)
    ensures r.err == Nil <==> link.Up? && Redis.Live(c, Key(biz, userId, date), now)
    ensures r.err == Nil ==> r.value == c[Key(biz, userId, date)].value
    ensures r.err != Nil ==> r.value == ZeroSummary
    ensures link.Up? && !Redis.Live(c, Key(biz, userId, date), now) ==> r.err == Fail(RedisNil)
    ensures link.Down? ==> r.err == Fail(link.kind)
  {
    Redis.Get(c, Key(biz, userId, date), now, link, ZeroSummary)
  }

  /** RedisDailySummaryCache.Set: stores `s` under the (biz, user, day) key,
      expiring 15 minutes from `now`; no other key changes. */
  function Set(c: Redis.Keyspace<DailySummary>, biz: string, userId: int, date: DateTime, s: DailySummary, now: int, link: Link)
    : (e: Effect<Redis.Keyspace<DailySummary>>)
    ensures e.err == Nil <==> link.Up?
    ensures e.err == Nil ==> Key(biz, userId, date) in e.state && e.state[Key(biz, userId, date)] == Redis.Entry(s, now + Expiration)
    ensures e.err != Nil ==> e.state == c
    ensures forall k :: k != Key(biz, userId, date) ==> (k in e.state <==> k in c) && (k in c ==> e.state[k] == c[k])
  {
    Redis.Set(c, Key(biz, userId, date), s, Expiration, now, link)
  }

  /** RedisDailySummaryCache.Delete: removes the (biz, user, day) entry and nothing else. */
  function Delete(c: Redis.Keyspace<DailySummary>, biz: string, userId: int, date: DateTime, link: Link)
    : (e: Effect<Redis.Keyspace<DailySummary>>)
    ensures e.err == Nil <==> link.Up?
    ensures e.err == Nil ==> Key(biz, userId, date) !in e.state
    ensures e.err != Nil ==> e.state == c
    ensures forall k :: k != Key(biz, userId, date) ==> (k in e.state <==> k in c) && (k in c ==> e.state[k] == c[k])
  {
    Redis.Del(c, Key(biz, userId, date), link)
  }

  /** A summary read back with the same (biz, user, day) before the
      expiration is the summary that was set. */
  lemma GetAfterSet(c: Redis.Keyspace<DailySummary>, biz: string, userId: int, date: DateTime, s: DailySummary,
                    now: int, later: int, setLink: Link, getLink: Link)
    requires setLink.Up? && getLink.Up?
    requires now <= later < now + Expiration
    ensures Get(Set(c, biz, userId, date, s, now, setLink).state, biz, userId, date, later, getLink) == Ret(s, Nil)
  {
  }

  /** A delete removes only its own (user, day) entry. */
  lemma GetAfterDelete(c: Redis.Keyspace<DailySummary>, biz: string, userId: int, date: DateTime,
                       otherUser: int, otherDate: DateTime, now: int, delLink: Link, getLink: Link)
    requires delLink.Up? && getLink.Up?
    requires ParsableDate(date.date) && ParsableDate(otherDate.date)
    ensures Get(Delete(c, biz, userId, date, delLink).state, biz, userId, date, now, getLink) == Ret(ZeroSummary, Fail(RedisNil))
    ensures (otherUser, otherDate.date) != (userId, date.date) ==>
      Get(Delete(c, biz, userId, date, delLink).state, biz, otherUser, otherDate, now, getLink) == Get(c, biz, otherUser, otherDate, now, getLink)
  {
    KeyInjective(biz, userId, date, otherUser, otherDate);
  }
}

=== FILE: summary_dao.dfy ===
/** The daily_summary table behind gorm
    (internal/repository/dao/daily_summary.go): one row of training
    counters per user and calendar day, read back for one day or added up
    over a range of days. */
module SummaryDao {
  import opened Base
  import opened Clock
  import opened Rows

  /** The seventeen counter columns of a summary row. */
  datatype Counters = Counters(
    duration: int,
    maxSpeed: int,
    totalSwings: int,
    rotation: int,
    forehandClear: int,
    backhandClear: int,
    forehandLift: int,
    backhandLift: int,
    forehandNet: int,
    backhandNet: int,
    forehandSmash: int,
    backhandSmash: int,
    forehandDrop: int,
    backhandDrop: int,
    forehandDrive: int,
    backhandDrive: int,
    pickupCount: int)

  const ZeroCounters: Counters := Counters(0, 0, 0, 0, 0, 0, 0, 0, 0, 0, 0, 0, 0, 0, 0, 0, 0)

  /** dao.DailySummary; `summaryDate` is a SQL DATE column, `ctime` and
      `utime` are Unix seconds. */
  datatype SummaryRow = SummaryRow(id: int, userId: int, summaryDate: Date, counters: Counters, ctime: int, utime: int)

  /** `dao.DailySummary{}`: its zero time.Time falls on 0001-01-01. */
  const ZeroRow: SummaryRow := SummaryRow(0, 0, Date(1, 1, 1), ZeroCounters, 0, 0)

  /** A DATE value compared with a time parameter: midnight of the stored day. */
  function DayStart(d: Date): DateTime
  {
    DateTime(d, 0)
  }

  /** What a query that selects only the counter columns scans into a
      fresh struct: the counters, every other field zero. */
  function CountersOnly(c: Counters): (r: SummaryRow)
    ensures r.counters == c
  {
    ZeroRow.(counters := c)
  }

  /** WHERE user_id = ? AND summary_date = ? */
  predicate OnDay(r: SummaryRow, userId: int, date: DateTime)
  {
    r.userId == userId && DayStart(r.summaryDate) == date
  }

  /** WHERE user_id = ? AND summary_date BETWEEN ? AND ? (both ends included). */
  predicate InRange(r: SummaryRow, userId: int, start: DateTime, end: DateTime)
  {
    r.userId == userId && NotAfter(start, DayStart(r.summaryDate)) && NotAfter(DayStart(r.summaryDate), end)
  }

  /** No user has two rows for the same calendar day. */
  predicate OneRowPerDay(rows: seq<SummaryRow>)
  {
    forall i, j :: 0 <= i < j < |rows| ==>
      !(rows[i].userId == rows[j].userId && rows[i].summaryDate == rows[j].summaryDate)
  }

  /** GormDailySummaryDAO.FindByUserIDAndDate: the counters of the user's
      row for `date` (the one with the smallest id if several), the zero
      row with a nil error when there is none, the error of a failed query. */
  function FindByUserIDAndDate(rows: seq<SummaryRow>, userId: int, date: DateTime, link: Link): (r: Ret<SummaryRow>)
    ensures r.value == CountersOnly(r.value.counters)
    ensures link.Up? ==> r.err == Nil
    ensures link.Down? ==> r == Ret(ZeroRow, Fail(link.kind))
    ensures link.Up? && (forall x :: x in rows ==> !OnDay(x, userId, date)) ==> r.value == ZeroRow
    ensures link.Up? && (exists x :: x in rows && OnDay(x, userId, date)) ==>
      exists x :: x in rows && OnDay(x, userId, date) && r.value == CountersOnly(x.counters)
        && forall y :: y in rows && OnDay(y, userId, date) ==> x.id <= y.id
  {
    if link.Down? then Ret(ZeroRow, Fail(link.kind))
    else match First(rows, (x: SummaryRow) => x.id, (x: SummaryRow) => OnDay(x, userId, date))
      case Some(x) => Ret(CountersOnly(x.counters), Nil)
      case None => Ret(ZeroRow, Nil)
  }

  /** SUM(column) over `rows`. */
  function Sum(rows: seq<SummaryRow>, f: Counters -> int): int
    decreases |rows|
  {
    if |rows| == 0 then 0 else Sum(rows[..|rows| - 1], f) + f(rows[|rows| - 1].counters)
  }

  /** MAX(column) over `rows`; None (SQL NULL) for no rows. */
  function Peak(rows: seq<SummaryRow>, f: Counters -> int): (p: Option<int>)
    ensures p.None? <==> |rows| == 0
    ensures p.Some? ==> forall x :: x in rows ==> f(x.counters) <= p.value
    ensures p.Some? ==> exists x :: x in rows && f(x.counters) == p.value
    decreases |rows|
  {
    if |rows| == 0 then None
    else
      var init := rows[..|rows| - 1];
      var last := rows[|rows| - 1];
      assert forall x :: x in rows <==> x in init || x == last;
      match Peak(init, f)
        case None => Some(f(last.counters))
        case Some(p) => Some(Max(p, f(last.counters)))
  }

  /** The SELECT list of the range query: MAX for the swing speed, SUM for
      every other counter; an empty selection scans as zeros. */
  function Totals(rows: seq<SummaryRow>): Counters
  {
    Counters(
      Sum(rows, (c: Counters) => c.duration),
      match Peak(rows, (c: Counters) => c.maxSpeed) case Some(p) => p case None => 0,
      Sum(rows, (c: Counters) => c.totalSwings),
      Sum(rows, (c: Counters) => c.rotation),
      Sum(rows, (c: Counters) => c.forehandClear),
      Sum(rows, (c: Counters) => c.backhandClear),
      Sum(rows, (c: Counters) => c.forehandLift),
      Sum(rows, (c: Counters) => c.backhandLift),
      Sum(rows, (c: Counters) => c.forehandNet),
      Sum(rows, (c: Counters) => c.backhandNet),
      Sum(rows, (c: Counters) => c.forehandSmash),
      Sum(rows, (c: Counters) => c.backhandSmash),
      Sum(rows, (c: Counters) => c.forehandDrop),
      Sum(rows, (c: Counters) => c.backhandDrop),
      Sum(rows, (c: Counters) => c.forehandDrive),
      Sum(rows, (c: Counters) => c.backhandDrive),
      Sum(rows, (c: Counters) => c.pickupCount))
  }

  /** Folding one more day's counters into running totals: counters add,
      the speed keeps the larger. */
  function Combine(a: Counters, b: Counters): Counters
  {
    Counters(
      a.duration + b.duration, Max(a.maxSpeed, b.maxSpeed), a.totalSwings + b.totalSwings,
      a.rotation + b.rotation, a.forehandClear + b.forehandClear, a.backhandClear + b.backhandClear,
      a.forehandLift + b.forehandLift, a.backhandLift + b.backhandLift, a.forehandNet + b.forehandNet,
      a.backhandNet + b.backhandNet, a.forehandSmash + b.forehandSmash, a.backhandSmash + b.backhandSmash,
      a.forehandDrop + b.forehandDrop, a.backhandDrop + b.backhandDrop, a.forehandDrive + b.forehandDrive,
      a.backhandDrive + b.backhandDrive, a.pickupCount + b.pickupCount)
  }

  /** The rows the range query reads. */
  function Selected(rows: seq<SummaryRow>, userId: int, start: DateTime, end: DateTime): (s: seq<SummaryRow>)
    ensures forall x :: x in s <==> x in rows && InRange(x, userId, start, end)
  {
    Filter(rows, (x: SummaryRow) => InRange(x, userId, start, end))
  }

  /** GormDailySummaryDAO.AggregateByUserIDAndDateRange: the user's totals
      over the days from `start` to `end`, scanned into a struct of which
      only the counters are set. */
  function AggregateByUserIDAndDateRange(rows: seq<SummaryRow>, userId: int, start: DateTime, end: DateTime, link: Link)
    : (r: Ret<SummaryRow>)
    ensures r.value == CountersOnly(r.value.counters)
    ensures link.Up? <==> r.err == Nil
    ensures link.Down? ==> r == Ret(ZeroRow, Fail(link.kind))
  {
    if link.Down? then Ret(ZeroRow, Fail(link.kind))
    else Ret(CountersOnly(Totals(Selected(rows, userId, start, end))), Nil)
  }

  /** The totals of no rows are zero, and of one row are that row's counters. */
  lemma TotalsOfFew(r: SummaryRow)
    ensures Totals([]) == ZeroCounters
    ensures Totals([r]) == r.counters
  {
    assert [r][..0] == [];
  }

  /** Adding a row to a non-empty selection combines its counters into the totals. */
  lemma TotalsSnoc(rows: seq<SummaryRow>, r: SummaryRow)
    requires |rows| > 0
    ensures Totals(rows + [r]) == Combine(Totals(rows), r.counters)
  {
    assert (rows + [r])[..|rows|] == rows;
  }

  /** A new row inside the range adds its counters to the range's totals;
      a row outside the range, or another user's, changes nothing. */
  lemma AggregateAfterInsert(rows: seq<SummaryRow>, r: SummaryRow, userId: int, start: DateTime, end: DateTime)
    ensures var before := AggregateByUserIDAndDateRange(rows, userId, start, end, Up).value.counters;
            var after := AggregateByUserIDAndDateRange(rows + [r], userId, start, end, Up).value.counters;
            && (!InRange(r, userId, start, end) ==> after == before)
            && (InRange(r, userId, start, end) && before == ZeroCounters && Selected(rows, userId, start, end) == [] ==> after == r.counters)
            && (InRange(r, userId, start, end) && Selected(rows, userId, start, end) != [] ==> after == Combine(before, r.counters))
  {
    var keep := (x: SummaryRow) => InRange(x, userId, start, end);
    FilterSnoc(rows, keep, r);
    var sel := Selected(rows, userId, start, end);
    if keep(r) {
      if sel == [] {
        TotalsOfFew(r);
        assert sel + [r] == [r];
      } else {
        TotalsSnoc(sel, r);
      }
    } else {
      assert sel + [] == sel;
    }
  }

  /** MAX over the range is one of the selected rows' speeds, and no
      selected row is faster. */
  lemma AggregatePeak(rows: seq<SummaryRow>, userId: int, start: DateTime, end: DateTime, x: SummaryRow)
    requires x in rows && InRange(x, userId, start, end)
    ensures var top := AggregateByUserIDAndDateRange(rows, userId, start, end, Up).value.counters.maxSpeed;
            x.counters.maxSpeed <= top
            && exists y :: y in rows && InRange(y, userId, start, end) && y.counters.maxSpeed == top
  {
    var sel := Selected(rows, userId, start, end);
    assert x in sel;
  }

  /** A one-day range picks exactly the rows of that day. */
  lemma OneDayRange(r: SummaryRow, userId: int, d: Date)
    ensures InRange(r, userId, DayStart(d), DayStart(d)) <==> OnDay(r, userId, DayStart(d))
  {
  }

  /** A row in a one-day range belongs to that user and falls on that day. */
  lemma InOneDayRange(r: SummaryRow, userId: int, d: Date)
    requires InRange(r, userId, DayStart(d), DayStart(d))
    ensures r.userId == userId && r.summaryDate == d
  {
    OneDayRange(r, userId, d);
  }

  /** With one row per user and day, when the last row falls in a one-day
      range no earlier row does. */
  lemma LastIsAloneOnItsDay(rows: seq<SummaryRow>, userId: int, d: Date)
    requires OneRowPerDay(rows) && |rows| > 0
    requires InRange(rows[|rows| - 1], userId, DayStart(d), DayStart(d))
    ensures forall x :: x in rows[..|rows| - 1] ==> !InRange(x, userId, DayStart(d), DayStart(d))
  {
    var n := |rows| - 1;
    InOneDayRange(rows[n], userId, d);
    forall x | x in rows[..n] ensures !InRange(x, userId, DayStart(d), DayStart(d)) {
      var i :| 0 <= i < n && rows[..n][i] == x;
      assert rows[i] == x;
      assert !(rows[i].userId == rows[n].userId && rows[i].summaryDate == rows[n].summaryDate);
      if InRange(x, userId, DayStart(d), DayStart(d)) {
        InOneDayRange(x, userId, d);
      }
    }
  }

  /** With one row per user and day, a selection confined to one day holds
      at most one row. */
  lemma {:induction false} SelectedOneDay(rows: seq<SummaryRow>, userId: int, d: Date)
    requires OneRowPerDay(rows)
    ensures |Selected(rows, userId, DayStart(d), DayStart(d))| <= 1
    decreases |rows|
  {
    if |rows| > 0 {
      var n := |rows| - 1;
      var init := rows[..n];
      assert rows == init + [rows[n]];
      assert OneRowPerDay(init) by {
        forall i, j | 0 <= i < j < |init|
          ensures !(init[i].userId == init[j].userId && init[i].summaryDate == init[j].summaryDate)
        {
          assert init[i] == rows[i] && init[j] == rows[j];
        }
      }
      var keep := (x: SummaryRow) => InRange(x, userId, DayStart(d), DayStart(d));
      FilterSnoc(init, keep, rows[n]);
      SelectedOneDay(init, userId, d);
      if keep(rows[n]) {
        LastIsAloneOnItsDay(rows, userId, d);
      }
    }
  }

  /** With one row per user and day, the range query over a single day
      returns exactly what the day query returns. */
  lemma RangeOfOneDayIsTheDay(rows: seq<SummaryRow>, userId: int, d: Date)
    requires OneRowPerDay(rows)
    ensures AggregateByUserIDAndDateRange(rows, userId, DayStart(d), DayStart(d), Up)
         == FindByUserIDAndDate(rows, userId, DayStart(d), Up)
  {
    var s := Selected(rows, userId, DayStart(d), DayStart(d));
    SelectedOneDay(rows, userId, d);
    if |s| == 0 {
      TotalsOfFew(ZeroRow);
      forall x | x in rows ensures !OnDay(x, userId, DayStart(d)) {
        assert x !in s;
      }
    } else {
      var x := s[0];
      assert s == [x];
      TotalsOfFew(x);
      assert x in s;
      forall y | y in rows && OnDay(y, userId, DayStart(d)) ensures y == x {
        assert y in s;
      }
      FirstOfUnique(rows, (y: SummaryRow) => y.id, (y: SummaryRow) => OnDay(y, userId, DayStart(d)), x);
    }
  }
}

=== FILE: summary_handler.dfy ===
/** DailySummaryHandler (internal/web/daily_summary.go): date validation
    and the mapping from service outcomes to response codes for the
    single-day and date-range summary requests. The service is a plain
    delegation to the summary repository. */
module SummaryHandler {
  import opened Base
  import opened Clock
  import opened Domain
  import opened Web
  import SummaryRepository
  import SummaryDao

  /** The cache namespace of summary reads. */
  const BizDailySummary: string := "DailySummary"

  /** DailySummaryHandler.GetByDate: an unparsable date gives 14002 with no
      service call; otherwise the signed-in user's summary for that date is
      read in the "DailySummary" namespace. `parseDate` is time.Parse with
      the "2006-01-02" layout; `result` is the service's answer. */
  function GetByDate(claims: UserClaims, date: string, parseDate: string -> Option<DateTime>, result: Ret<DailySummary>)
    : (r: Reply<DailySummary>)
    ensures r.status == StatusOK
    ensures parseDate(date).None? <==> r.code == CodeBadInput
    ensures parseDate(date).None? ==> r.calls == []
    ensures parseDate(date).Some? ==> r.calls == [GetByDateCall(BizDailySummary, claims.id, parseDate(date).value)]
    ensures r.code == CodeOK <==> parseDate(date).Some? && result.err == Nil
    ensures r.code == CodeOK <==> r.data.Some?
    ensures r.data.Some? ==> r.data.value == result.value
    ensures r.code in {CodeOK, CodeBadInput, CodeFailure}
  {
    match parseDate(date)
      case None => Reply(StatusOK, CodeBadInput, None, [])
      case Some(d) =>
        var calls := [GetByDateCall(BizDailySummary, claims.id, d)];
        if result.err != Nil then Reply(StatusOK, CodeFailure, None, calls)
        else Reply(StatusOK, CodeOK, Some(result.value), calls)
  }

  /** DailySummaryHandler.GetByDateRange: either date unparsable gives
      14002 with no service call; the range is passed on as given, with no
      check that the start comes before the end. */
  function GetByDateRange(claims: UserClaims, start: string, end: string, parseDate: string -> Option<DateTime>,
                          result: Ret<DailySummary>): (r: Reply<DailySummary>)
    ensures r.status == StatusOK
    ensures parseDate(start).None? || parseDate(end).None? <==> r.code == CodeBadInput
    ensures r.code == CodeBadInput <==> r.calls == []
    ensures r.calls != [] ==> r.calls == [GetByDateRangeCall(claims.id, parseDate(start).value, parseDate(end).value)]
    ensures r.code == CodeOK <==> r.calls != [] && result.err == Nil
    ensures r.code == CodeOK <==> r.data.Some?
    ensures r.data.Some? ==> r.data.value == result.value
    ensures r.code in {CodeOK, CodeBadInput, CodeFailure}
  {
    match parseDate(start)
      case None => Reply(StatusOK, CodeBadInput, None, [])
      case Some(s) =>
        match parseDate(end)
          case None => Reply(StatusOK, CodeBadInput, None, [])
          case Some(e) =>
            var calls := [GetByDateRangeCall(claims.id, s, e)];
            if result.err != Nil then Reply(StatusOK, CodeFailure, None, calls)
            else Reply(StatusOK, CodeOK, Some(result.value), calls)
  }

  /** A reversed range is passed to the store as is; it selects no row,
      so the reply is 10000 with all-zero counters. */
  lemma ReversedRangeGivesZeros(st: SummaryRepository.State, claims: UserClaims, start: string, end: string,
                                parseDate: string -> Option<DateTime>)
    requires parseDate(start).Some? && parseDate(end).Some?
    requires NotAfter(parseDate(end).value, parseDate(start).value) && parseDate(end).value != parseDate(start).value
    ensures var s := SummaryRepository.FindByUserIDAndDateRange(st, claims.id, parseDate(start).value, parseDate(end).value, Up);
            var r := GetByDateRange(claims, start, end, parseDate, s.ret);
            r.code == CodeOK && SummaryRepository.CountersOf(r.data.value) == SummaryDao.ZeroCounters
  {
    var a, b := parseDate(start).value, parseDate(end).value;
    forall x | x in st.rows ensures !SummaryDao.InRange(x, claims.id, a, b) {
      NothingBetweenReversed(a, b, SummaryDao.DayStart(x.summaryDate));
    }
    SummaryDao.TotalsOfFew(SummaryDao.ZeroRow);
  }
}

=== FILE: summary_repository.dfy ===
/** dailySummaryRepository (internal/repository/daily_summary.go): the
    summary DAO with a read-through Redis cache for single days, an
    uncached range aggregate, and the conversions between rows and domain
    summaries. */
module SummaryRepository {
  import opened Base
  import opened Clock
  import opened Domain
  import Redis
  import SummaryCache
  import opened SummaryDao

  datatype State = State(rows: seq<SummaryRow>, cache: Redis.Keyspace<DailySummary>)

  function CountersOf(d: DailySummary): Counters
  {
    Counters(d.duration, d.maxSpeed, d.totalSwings, d.rotation, d.forehandClear, d.backhandClear,
             d.forehandLift, d.backhandLift, d.forehandNet, d.backhandNet, d.forehandSmash, d.backhandSmash,
             d.forehandDrop, d.backhandDrop, d.forehandDrive, d.backhandDrive, d.pickupCount)
  }

  /** entityToDomain: the DATE column becomes midnight of its day, Ctime
      and Utime are read as Unix seconds. */
  function EntityToDomain(r: SummaryRow): (d: DailySummary)
    ensures CountersOf(d) == r.counters
    ensures d.id == r.id && d.userId == r.userId && d.date == DayStart(r.summaryDate)
    ensures d.createdAt == FromUnix(r.ctime) && d.updatedAt == FromUnix(r.utime)
  {
    var c := r.counters;
    DailySummary(r.id, r.userId, DayStart(r.summaryDate),
                 c.duration, c.maxSpeed, c.totalSwings, c.rotation, c.forehandClear, c.backhandClear,
                 c.forehandLift, c.backhandLift, c.forehandNet, c.backhandNet, c.forehandSmash, c.backhandSmash,
                 c.forehandDrop, c.backhandDrop, c.forehandDrive, c.backhandDrive, c.pickupCount,
                 FromUnix(r.ctime), FromUnix(r.utime))
  }

  /** domainToEntity, with the date as the DATE column keeps it: its
      calendar day. CreatedAt and UpdatedAt become Unix seconds. */
  function DomainToEntity(d: DailySummary): (r: SummaryRow)
    ensures r.counters == CountersOf(d)
    ensures r.id == d.id && r.userId == d.userId && r.summaryDate == d.date.date
    ensures r.ctime == Unix(d.createdAt) && r.utime == Unix(d.updatedAt)
  {
    SummaryRow(d.id, d.userId, d.date.date, CountersOf(d), Unix(d.createdAt), Unix(d.updatedAt))
  }

  /** A summary written and read back keeps everything but the time of day
      of its date and the sub-second part of its timestamps. */
  lemma DomainRoundTrip(d: DailySummary)
    ensures EntityToDomain(DomainToEntity(d))
         == d.(date := Midnight(d.date), createdAt := TruncateSecond(d.createdAt), updatedAt := TruncateSecond(d.updatedAt))
  {
    SecondRoundTrip(d.createdAt);
    SecondRoundTrip(d.updatedAt);
  }

  /** A row read and written back is the same row. */
  lemma EntityRoundTrip(r: SummaryRow)
    ensures DomainToEntity(EntityToDomain(r)) == r
  {
    var d := EntityToDomain(r);
    assert Unix(FromUnix(r.ctime)) == r.ctime;
    assert Unix(FromUnix(r.utime)) == r.utime;
  }

  /** The summary a cache miss for user `userId` on day `d` loads. */
  function DayView(rows: seq<SummaryRow>, userId: int, d: Date): DailySummary
  {
    EntityToDomain(SummaryDao.FindByUserIDAndDate(rows, userId, DayStart(d), Up).value)
  }

  /** Every live entry of the `biz` namespace for a calendar day shows
      what the database holds for that user and day. */
  ghost predicate Coherent(st: State, biz: string, now: int)
  {
    forall userId, d :: ParsableDate(d) && Redis.Live(st.cache, SummaryCache.Key(biz, userId, DayStart(d)), now) ==>
      st.cache[SummaryCache.Key(biz, userId, DayStart(d))].value == DayView(st.rows, userId, d)
  }

  /** dailySummaryRepository.FindByUserIDAndDate: the cached summary on a
      hit; on a miss the DAO's row (zeros when there is none) converted and
      written back to the cache, ignoring the write's error; any other
      error is returned with the zero summary. */
  function FindByUserIDAndDate(st: State, biz: string, userId: int, date: DateTime, now: int,
                               getLink: Link, findLink: Link, setLink: Link): (s: Step<DailySummary, State>)
    ensures s.state.rows == st.rows
    ensures s.ret.err != Nil ==> s.ret.value == ZeroSummary && s.state == st
    ensures getLink.Up? && Redis.Live(st.cache, SummaryCache.Key(biz, userId, date), now) ==>
      s == Step(Ret(st.cache[SummaryCache.Key(biz, userId, date)].value, Nil), st, [CacheGet])
    ensures DaoFindByDay in s.calls <==>
      (getLink.Up? && !Redis.Live(st.cache, SummaryCache.Key(biz, userId, date), now)) || getLink == Down(RedisNil)
    ensures DaoFindByDay in s.calls ==> (s.ret.err == Nil <==> findLink.Up?)
    ensures DaoFindByDay in s.calls && findLink.Down? ==> s.ret.err == Fail(findLink.kind)
    ensures getLink.Down? && getLink.kind != RedisNil ==> s == Step(Ret(ZeroSummary, Fail(getLink.kind)), st, [CacheGet])
    ensures DaoFindByDay in s.calls && s.ret.err == Nil ==>
      s.ret.value == EntityToDomain(SummaryDao.FindByUserIDAndDate(st.rows, userId, date, Up).value)
      && s.calls == [CacheGet, DaoFindByDay, CacheSet]
    ensures DaoFindByDay in s.calls && s.ret.err == Nil ==>
      s.state.cache == (if setLink.Up?
                        then st.cache[SummaryCache.Key(biz, userId, date) := Redis.Entry(s.ret.value, now + SummaryCache.Expiration)]
                        else st.cache)
    ensures s.state.cache != st.cache ==> s.ret.err == Nil && CacheSet in s.calls
  {
    var g := SummaryCache.Get(st.cache, biz, userId, date, now, getLink);
    if g.err == Nil then Step(g, st, [CacheGet])
    else if g.err == Fail(RedisNil) then
      var f := SummaryDao.FindByUserIDAndDate(st.rows, userId, date, findLink);
      if f.err != Nil then Step(Ret(ZeroSummary, f.err), st, [CacheGet, DaoFindByDay])
      else
        var v := EntityToDomain(f.value);
        var w := SummaryCache.Set(st.cache, biz, userId, date, v, now, setLink);
        Step(Ret(v, Nil), st.(cache := w.state), [CacheGet, DaoFindByDay, CacheSet])
    else Step(Ret(ZeroSummary, g.err), st, [CacheGet])
  }

  /** For a date at midnight, as the handlers parse them, a day read with
      Redis and MySQL reachable returns what the database holds and keeps
      the cache coherent. */
  lemma FindByDayAgreesWithStore(st: State, biz: string, userId: int, d: Date, now: int, setLink: Link)
    requires ParsableDate(d) && Coherent(st, biz, now)
    ensures var s := FindByUserIDAndDate(st, biz, userId, DayStart(d), now, Up, Up, setLink);
      && s.ret == Ret(DayView(st.rows, userId, d), Nil)
      && Coherent(s.state, biz, now)
  {
    var s := FindByUserIDAndDate(st, biz, userId, DayStart(d), now, Up, Up, setLink);
    if s.state.cache != st.cache {
      forall u, e | ParsableDate(e) && Redis.Live(s.state.cache, SummaryCache.Key(biz, u, DayStart(e)), now)
        ensures s.state.cache[SummaryCache.Key(biz, u, DayStart(e))].value == DayView(s.state.rows, u, e)
      {
        SummaryCache.KeyInjective(biz, userId, DayStart(d), u, DayStart(e));
      }
    }
  }

  /** A day whose row holds counters reads back exactly those counters. */
  lemma DayReadShowsRow(st: State, biz: string, userId: int, d: Date, now: int, setLink: Link, row: SummaryRow)
    requires ParsableDate(d) && Coherent(st, biz, now)
    requires OneRowPerDay(st.rows) && row in st.rows && row.userId == userId && row.summaryDate == d
    ensures CountersOf(FindByUserIDAndDate(st, biz, userId, DayStart(d), now, Up, Up, setLink).ret.value) == row.counters
  {
    FindByDayAgreesWithStore(st, biz, userId, d, now, setLink);
    forall y | y in st.rows && OnDay(y, userId, DayStart(d)) ensures y == row {
      var i :| 0 <= i < |st.rows| && st.rows[i] == y;
      var j :| 0 <= j < |st.rows| && st.rows[j] == row;
      assert st.rows[i].userId == st.rows[j].userId && st.rows[i].summaryDate == st.rows[j].summaryDate;
    }
    Rows.FirstOfUnique(st.rows, (y: SummaryRow) => y.id, (y: SummaryRow) => OnDay(y, userId, DayStart(d)), row);
  }

  /** dailySummaryRepository.FindByUserIDAndDateRange: the DAO's aggregate
      converted; the cache is neither read nor written. */
  function FindByUserIDAndDateRange(st: State, userId: int, start: DateTime, end: DateTime, link: Link)
    : (s: Step<DailySummary, State>)
    ensures s.state == st && s.calls == [DaoAggregate]
    ensures s.ret.err == (if link.Up? then Nil else Fail(link.kind))
    ensures s.ret.err != Nil ==> s.ret.value == ZeroSummary
    ensures s.ret.err == Nil ==>
      CountersOf(s.ret.value) == SummaryDao.AggregateByUserIDAndDateRange(st.rows, userId, start, end, Up).value.counters
      && s.ret.value.id == 0 && s.ret.value.userId == 0 && s.ret.value.date == ZeroDateTime
      && s.ret.value.createdAt == FromUnix(0) && s.ret.value.updatedAt == FromUnix(0)
  {
    var a := SummaryDao.AggregateByUserIDAndDateRange(st.rows, userId, start, end, link);
    if a.err != Nil then Step(Ret(ZeroSummary, a.err), st, [DaoAggregate])
    else Step(Ret(EntityToDomain(a.value), Nil), st, [DaoAggregate])
  }
}

=== FILE: text.dfy ===
/** Strings as Go formats and inspects them: decimal formatting with zero
    padding (fmt's "%d" / "%06d" and the time package's appendInt), its
    inverse, prefix and substring tests, and UTF-8 byte length. */
module Text {
  import opened Base

  predicate IsDigit(c: char)
  {
    '0' <= c <= '9'
  }

  predicate AllDigits(s: string)
  {
    forall i :: 0 <= i < |s| ==> IsDigit(s[i])
  }

  function DigitChar(d: nat): (c: char)
    requires d < 10
    ensures IsDigit(c) && c as int - '0' as int == d
  {
    ('0' as int + d) as char
  }

  function DigitValue(c: char): nat
    requires IsDigit(c)
  {
    c as int - '0' as int
  }

  function Pow10(k: nat): (p: nat)
    ensures 1 <= p
  {
    if k == 0 then 1 else 10 * Pow10(k - 1)
  }

  /** The decimal digits of `n`, most significant first, without leading
      zeros ("0" for zero). */
  function Digits(n: nat): (s: string)
    ensures 1 <= |s| && AllDigits(s)
    decreases n
  {
    if n < 10 then [DigitChar(n)] else Digits(n / 10) + [DigitChar(n % 10)]
  }

  /** The number a string of decimal digits denotes; the inverse reading of `Digits`. */
  function Value(s: string): nat
    requires AllDigits(s)
    decreases |s|
  {
    if |s| == 0 then 0 else 10 * Value(s[..|s| - 1]) + DigitValue(s[|s| - 1])
  }

  function Zeros(k: nat): (s: string)
    ensures |s| == k && AllDigits(s)
  {
    seq(k, _ => '0')
  }

  function Magnitude(x: int): nat
  {
    if x < 0 then -x else x
  }

  /** The digits of `n` left-padded with '0' to at least `width` characters. */
  function PadDigits(n: nat, width: nat): (s: string)
    ensures AllDigits(s) && |s| == Max(width, |Digits(n)|)
  {
    var d := Digits(n);
    if |d| < width then Zeros(width - |d|) + d else d
  }

  /** Go's decimal formatting of an integer with a minimum digit width: a
      '-' for negative numbers, then the magnitude zero-padded to `width`
      digits. Width 0 is fmt's "%d", width 6 with x >= 0 is "%06d", and
      widths 4 and 2 are how the time package prints years, months and days. */
  function FormatInt(x: int, width: nat): string
  {
    (if x < 0 then "-" else "") + PadDigits(Magnitude(x), width)
  }

  /** Reads back what `FormatInt` writes: an optional '-' followed by at
      least one decimal digit. */
  function ParseInt(s: string): Option<int>
  {
    if 0 < |s| && s[0] == '-' then
      if 1 < |s| && AllDigits(s[1..]) then Some(0 - Value(s[1..]) as int) else None
    else if 0 < |s| && AllDigits(s) then Some(Value(s))
    else None
  }

  lemma {:induction false} ValueOfDigits(n: nat)
    ensures Value(Digits(n)) == n
    decreases n
  {
    if 10 <= n {
      var s := Digits(n);
      assert s[..|s| - 1] == Digits(n / 10);
      ValueOfDigits(n / 10);
    }
  }

  lemma {:induction false} ValueOfZeros(k: nat)
    ensures Value(Zeros(k)) == 0
  {
    if 0 < k {
      assert Zeros(k)[..k - 1] == Zeros(k - 1);
      ValueOfZeros(k - 1);
    }
  }

  lemma {:induction false} ValueIgnoresLeadingZeros(k: nat, s: string)
    requires AllDigits(s)
    ensures AllDigits(Zeros(k) + s)
    ensures Value(Zeros(k) + s) == Value(s)
    decreases |s|
  {
    var t := Zeros(k) + s;
    assert AllDigits(t) by {
      forall i | 0 <= i < |t| ensures IsDigit(t[i]) {
        if i < k { assert t[i] == Zeros(k)[i]; } else { assert t[i] == s[i - k]; }
      }
    }
    if |s| == 0 {
      assert t == Zeros(k);
      ValueOfZeros(k);
    } else {
      assert t[..|t| - 1] == Zeros(k) + s[..|s| - 1];
      ValueIgnoresLeadingZeros(k, s[..|s| - 1]);
    }
  }

  lemma ValueOfPadDigits(n: nat, width: nat)
    ensures Value(PadDigits(n, width)) == n
  {
    var d := Digits(n);
    ValueOfDigits(n);
    if |d| < width {
      ValueIgnoresLeadingZeros(width - |d|, d);
    }
  }

  /** Formatting an integer at any width and parsing it back gives the integer. */
  lemma ParseFormatInt(x: int, width: nat)
    ensures ParseInt(FormatInt(x, width)) == Some(x)
  {
    var p := PadDigits(Magnitude(x), width);
    ValueOfPadDigits(Magnitude(x), width);
    var s := FormatInt(x, width);
    if x < 0 {
      assert s == "-" + p;
      assert s[1..] == p;
    } else {
      assert s == p;
      assert p[0] != '-' by { assert IsDigit(p[0]); }
    }
  }

  /** Two integers format alike at a given width exactly when they are equal. */
  lemma FormatIntInjective(x: int, y: int, width: nat)
    ensures FormatInt(x, width) == FormatInt(y, width) <==> x == y
  {
    ParseFormatInt(x, width);
    ParseFormatInt(y, width);
  }

  lemma {:induction false} DigitsFit(n: nat, k: nat)
    requires 1 <= k && n < Pow10(k)
    ensures |Digits(n)| <= k
    decreases n
  {
    if 10 <= n {
      assert 2 <= k;
      assert n / 10 < Pow10(k - 1);
      DigitsFit(n / 10, k - 1);
    }
  }

  /** A non-negative number below 10^width prints as exactly `width` digits. */
  lemma FormatIntFixedWidth(x: int, width: nat)
    requires 1 <= width && 0 <= x < Pow10(width)
    ensures |FormatInt(x, width)| == width && AllDigits(FormatInt(x, width))
  {
    DigitsFit(x, width);
    assert FormatInt(x, width) == PadDigits(x, width);
  }

  predicate HasPrefix(s: string, prefix: string)
  {
    |prefix| <= |s| && s[..|prefix|] == prefix
  }

  /** Go's strings.Contains, by trying every start position in turn. */
  predicate Contains(s: string, sub: string)
    decreases |s|
  {
    HasPrefix(s, sub) || (0 < |s| && Contains(s[1..], sub))
  }

  /** `sub` occurs in `s` starting at position `i`. */
  predicate OccursAt(s: string, sub: string, i: int)
  {
    0 <= i && i + |sub| <= |s| && s[i..i + |sub|] == sub
  }

  /** `Contains` holds exactly when `sub` occurs at some position of `s`. */
  lemma {:induction false} ContainsIff(s: string, sub: string)
    ensures Contains(s, sub) <==> exists i :: OccursAt(s, sub, i)
    decreases |s|
  {
    if Contains(s, sub) {
      if HasPrefix(s, sub) {
        assert OccursAt(s, sub, 0);
      } else {
        ContainsIff(s[1..], sub);
        var j :| OccursAt(s[1..], sub, j);
        assert s[j + 1..j + 1 + |sub|] == s[1..][j..j + |sub|];
        assert OccursAt(s, sub, j + 1);
      }
    }
    if exists i :: OccursAt(s, sub, i) {
      var i :| OccursAt(s, sub, i);
      if i == 0 {
        assert HasPrefix(s, sub);
      } else {
        assert s[1..][i - 1..i - 1 + |sub|] == s[i..i + |sub|];
        assert OccursAt(s[1..], sub, i - 1);
        ContainsIff(s[1..], sub);
      }
    }
  }

  /** A string in which the first character of `sub` never appears does not contain `sub`. */
  lemma {:induction false} NoFirstCharNoContains(s: string, sub: string)
    requires 0 < |sub|
    requires forall i :: 0 <= i < |s| ==> s[i] != sub[0]
    ensures !Contains(s, sub)
    decreases |s|
  {
    assert !HasPrefix(s, sub) by {
      if |sub| <= |s| {
        assert s[..|sub|][0] == s[0];
      }
    }
    if 0 < |s| {
      forall i | 0 <= i < |s[1..]| ensures s[1..][i] != sub[0] {
        assert s[1..][i] == s[i + 1];
      }
      NoFirstCharNoContains(s[1..], sub);
    }
  }

  /** Two concatenations with equally long first parts are equal exactly
      when both parts are. */
  lemma SplitConcat(a1: string, b1: string, a2: string, b2: string)
    requires |a1| == |a2|
    ensures a1 + b1 == a2 + b2 <==> a1 == a2 && b1 == b2
  {
    if a1 + b1 == a2 + b2 {
      assert a1 == (a1 + b1)[..|a1|] && a2 == (a2 + b2)[..|a2|];
      assert b1 == (a1 + b1)[|a1|..] && b2 == (a2 + b2)[|a2|..];
    }
  }

  /** Bytes the UTF-8 encoding of one Unicode scalar value takes. */
  function Utf8Width(c: char): nat
  {
    if c as int < 0x80 then 1
    else if c as int < 0x800 then 2
    else if c as int < 0x10000 then 3
    else 4
  }

  /** Go's `len` of a string: its length in UTF-8 bytes. */
  function Utf8Len(s: string): (n: nat)
    ensures |s| <= n <= 4 * |s|
    decreases |s|
  {
    if |s| == 0 then 0 else Utf8Len(s[..|s| - 1]) + Utf8Width(s[|s| - 1])
  }
}

=== FILE: user_cache.dfy ===
/** The user cache (internal/repository/cache/user.go): users stored in
    Redis under "user:info:{id}" for 15 minutes. */
module UserCache {
  import opened Base
  import opened Text
  import opened Clock
  import opened Domain
  import Redis

  /** time.Minute * 15, in nanoseconds. */
  const Expiration: int := 15 * 60 * NanosPerSecond

  const KeyPrefix: string := "user:info:"

  /** fmt.Sprintf("user:info:%d", id). */
  function Key(id: int): (k: string)
    ensures HasPrefix(k, KeyPrefix)
  {
    KeyPrefix + FormatInt(id, 0)
  }

  /** Distinct ids give distinct keys. */
  lemma KeyInjective(a: int, b: int)
    ensures Key(a) == Key(b) <==> a == b
  {
    if Key(a) == Key(b) {
      assert Key(a)[|KeyPrefix|..] == FormatInt(a, 0);
      assert Key(b)[|KeyPrefix|..] == FormatInt(b, 0);
      FormatIntInjective(a, b, 0);
    }
  }

  /** RedisUserCache.Get: the cached user, redis.Nil (ErrKeyNotExist)
      unchanged when nothing live is stored, or the command's error; the
      zero user accompanies every error. */
  function Get(c: Redis.Keyspace<User>, id: int, now: int, link: Link): (r: Ret<User>)
    ensures r.err == Nil <==> link.Up? && Redis.Live(c, Key(id), now)
    ensures r.err == Nil ==> r.value == c[Key(id)].value
    ensures r.err != Nil ==> r.value == ZeroUser
    ensures link.Up? && !Redis.Live(c, Key(id), now) ==> r.err == Fail(RedisNil)
    ensures link.Down? ==> r.err == Fail(link.kind)
  {
    Redis.Get(c, Key(id), now, link, ZeroUser)
  }

  /** RedisUserCache.Set: stores `u` under the key of its own id, expiring
      15 minutes from `now`; no other key changes. */
  function Set(c: Redis.Keyspace<User>, u: User, now: int, link: Link): (e: Effect<Redis.Keyspace<User>>)
    ensures e.err == Nil <==> link.Up?
    ensures e.err == Nil ==> Key(u.id) in e.state && e.state[Key(u.id)] == Redis.Entry(u, now + Expiration)
    ensures e.err != Nil ==> e.state == c
    ensures forall k :: k != Key(u.id) ==> (k in e.state <==> k in c) && (k in c ==> e.state[k] == c[k])
  {
    Redis.Set(c, Key(u.id), u, Expiration, now, link)
  }

  /** RedisUserCache.Delete: removes the entry of `id` and nothing else. */
  function Delete(c: Redis.Keyspace<User>, id: int, link: Link): (e: Effect<Redis.Keyspace<User>>)
    ensures e.err == Nil <==> link.Up?
    ensures e.err == Nil ==> Key(id) !in e.state
    ensures e.err != Nil ==> e.state == c
    ensures forall k :: k != Key(id) ==> (k in e.state <==> k in c) && (k in c ==> e.state[k] == c[k])
  {
    Redis.Del(c, Key(id), link)
  }

  /** A user read back before the expiration is the user that was set. */
  lemma GetAfterSet(c: Redis.Keyspace<User>, u: User, now: int, later: int, setLink: Link, getLink: Link)
    requires setLink.Up? && getLink.Up?
    requires now <= later < now + Expiration
    ensures Get(Set(c, u, now, setLink).state, u.id, later, getLink) == Ret(u, Nil)
  {
  }

  /** Once the expiration has passed, a set user is gone. */
  lemma GetAfterExpiry(c: Redis.Keyspace<User>, u: User, now: int, later: int, setLink: Link, getLink: Link)
    requires setLink.Up? && getLink.Up?
    requires now + Expiration <= later
    ensures Get(Set(c, u, now, setLink).state, u.id, later, getLink) == Ret(ZeroUser, Fail(RedisNil))
  {
  }

  /** After a successful delete the id misses, and every other id reads as before. */
  lemma GetAfterDelete(c: Redis.Keyspace<User>, id: int, other: int, now: int, delLink: Link, getLink: Link)
    requires delLink.Up?
    ensures Get(Delete(c, id, delLink).state, id, now, getLink).err == (if getLink.Up? then Fail(RedisNil) else Fail(getLink.kind))
    ensures other != id ==> Get(Delete(c, id, delLink).state, other, now, getLink) == Get(c, other, now, getLink)
  {
    KeyInjective(id, other);
  }
}

=== FILE: user_dao.dfy ===
/** The user table behind gorm (internal/repository/dao/user.go): rows with
    nullable columns, an auto-increment primary key, and unique indexes on
    account and phone that ignore NULLs. */
module UserDao {
  import opened Base
  import opened Rows

  /** MySQL's error number for a duplicate entry in a unique index. */
  const DuplicateEntry: int := 1062

  /** sql.NullString: `valid` false stands for SQL NULL. */
  datatype NullString = NullString(s: string, valid: bool)

  /** sql.NullInt64. */
  datatype NullInt64 = NullInt64(i: int, valid: bool)

  const NullStr: NullString := NullString("", false)
  const NullInt: NullInt64 := NullInt64(0, false)

  /** dao.User; `birthday`, `ctime` and `utime` are Unix milliseconds. */
  datatype UserRow = UserRow(
    id: int,
    username: NullString,
    account: NullString,
    password: string,
    phone: NullString,
    nickname: NullString,
    weightKg: int,
    heightCm: int,
    aboutMe: NullString,
    birthday: NullInt64,
    ctime: int,
    utime: int)

  /** `dao.User{}`. */
  const ZeroRow: UserRow := UserRow(0, NullStr, NullStr, "", NullStr, NullStr, 0, 0, NullStr, NullInt, 0, 0)

  /** The table in insertion order, with the next auto-increment id. */
  datatype Table = Table(rows: seq<UserRow>, autoIncrement: int)

  /** What a nullable column holds once written: the driver sends an
      invalid NullString as SQL NULL, which reads back as NullString{}. */
  function StoredString(n: NullString): NullString
  {
    if n.valid then n else NullStr
  }

  function StoredInt(n: NullInt64): NullInt64
  {
    if n.valid then n else NullInt
  }

  /** A row as the database keeps it. */
  function Stored(r: UserRow): UserRow
  {
    r.(username := StoredString(r.username), account := StoredString(r.account),
       phone := StoredString(r.phone), nickname := StoredString(r.nickname),
       aboutMe := StoredString(r.aboutMe), birthday := StoredInt(r.birthday))
  }

  predicate Normalized(r: UserRow)
  {
    Stored(r) == r
  }

  /** Two nullable values that a unique index refuses side by side: equal and both non-NULL. */
  predicate Clash(a: NullString, b: NullString)
  {
    a.valid && b.valid && a.s == b.s
  }

  /** Two rows that cannot both be in the table: same primary key, or the
      same non-NULL account or phone. */
  predicate Collide(a: UserRow, b: UserRow)
  {
    a.id == b.id || Clash(a.account, b.account) || Clash(a.phone, b.phone)
  }

  /** The table's integrity: unique keys, every id below the auto-increment
      counter, NULL columns stored as NULL. */
  predicate Valid(t: Table)
  {
    && (forall i :: 0 <= i < |t.rows| ==> t.rows[i].id < t.autoIncrement && Normalized(t.rows[i]))
    && (forall i, j :: 0 <= i < j < |t.rows| ==> !Collide(t.rows[i], t.rows[j]))
  }

  predicate Conflicts(rows: seq<UserRow>, row: UserRow)
  {
    exists i :: 0 <= i < |rows| && Collide(rows[i], row)
  }

  /** The id gorm inserts: the auto-increment value for a zero id. */
  function AssignedId(t: Table, u: UserRow): int
  {
    if u.id == 0 then t.autoIncrement else u.id
  }

  /** The row Insert writes: `u` with its id and both timestamps set to `nowMs`. */
  function NewRow(t: Table, u: UserRow, nowMs: int): (r: UserRow)
    ensures r.id == (if u.id == 0 then t.autoIncrement else u.id)
    ensures r.ctime == nowMs && r.utime == nowMs
    ensures Normalized(r)
    ensures r.account == StoredString(u.account) && r.phone == StoredString(u.phone) && r.password == u.password
  {
    Stored(u.(id := AssignedId(t, u), ctime := nowMs, utime := nowMs))
  }

  /** Insert's translation of the database error. */
  function InsertError(err: Error): Error
  {
    if err == Fail(MySql(DuplicateEntry)) then Fail(UserDuplicate) else err
  }

  /** GormUserDAO.Insert: stamps Ctime and Utime with the current
      millisecond, inserts, and reports a duplicate-entry error as
      ErrUserDuplicate. */
  function Insert(t: Table, u: UserRow, nowMs: int, link: Link): (e: Effect<Table>)
    ensures e.err == Nil ==> e.state.rows == t.rows + [NewRow(t, u, nowMs)]
    ensures e.err == Nil ==> var r := e.state.rows[|e.state.rows| - 1]; r.ctime == nowMs && r.utime == nowMs
    ensures e.err != Nil ==> e.state == t
    ensures link.Up? ==> (e.err == Nil <==> !Conflicts(t.rows, NewRow(t, u, nowMs)))
    ensures link.Up? ==> (e.err == Nil || e.err == Fail(UserDuplicate))
    ensures link.Down? && link.kind != MySql(DuplicateEntry) ==> e.err == Fail(link.kind)
    ensures e.err != Fail(MySql(DuplicateEntry))
  {
    var row := NewRow(t, u, nowMs);
    var engine :=
      if link.Down? then Fail(link.kind)
      else if Conflicts(t.rows, row) then Fail(MySql(DuplicateEntry))
      else Nil;
    if engine == Nil then Effect(Table(t.rows + [row], Max(t.autoIncrement, row.id + 1)), Nil)
    else Effect(t, InsertError(engine))
  }

  /** A successful insert keeps the table's integrity. */
  lemma InsertPreservesValid(t: Table, u: UserRow, nowMs: int, link: Link)
    requires Valid(t)
    ensures Valid(Insert(t, u, nowMs, link).state)
  {
    var e := Insert(t, u, nowMs, link);
    if e.err == Nil {
      var row := NewRow(t, u, nowMs);
      var rows := e.state.rows;
      assert rows == t.rows + [row];
      assert Normalized(row);
      forall i, j | 0 <= i < j < |rows| ensures !Collide(rows[i], rows[j]) {
        if j == |t.rows| {
          assert rows[j] == row;
          assert !Collide(t.rows[i], row);
        } else {
          assert rows[i] == t.rows[i] && rows[j] == t.rows[j];
        }
      }
    }
  }

  /** A second row with the non-NULL account or phone of an existing row is
      refused with ErrUserDuplicate and leaves the table unchanged. */
  lemma InsertDuplicateRefused(t: Table, u: UserRow, nowMs: int, existing: UserRow)
    requires existing in t.rows
    requires Clash(existing.account, u.account) || Clash(existing.phone, u.phone)
    ensures Insert(t, u, nowMs, Up) == Effect(t, Fail(UserDuplicate))
  {
    var i :| 0 <= i < |t.rows| && t.rows[i] == existing;
    assert Collide(t.rows[i], NewRow(t, u, nowMs));
  }

  /** gorm's First on the table: the matching row with the smallest id,
      ErrRecordNotFound when nothing matches; the zero row with every error. */
  function FindBy(t: Table, keep: UserRow -> bool, link: Link): (r: Ret<UserRow>)
    ensures r.err == Nil ==> r.value in t.rows && keep(r.value)
    ensures r.err != Nil ==> r.value == ZeroRow
    ensures link.Up? ==> (r.err == Fail(RecordNotFound) <==> forall x :: x in t.rows ==> !keep(x))
    ensures link.Up? ==> r.err == Nil || r.err == Fail(RecordNotFound)
    ensures link.Down? ==> r.err == Fail(link.kind)
  {
    if link.Down? then Ret(ZeroRow, Fail(link.kind))
    else match First(t.rows, (x: UserRow) => x.id, keep)
      case Some(x) => Ret(x, Nil)
      case None => Ret(ZeroRow, Fail(RecordNotFound))
  }

  /** GormUserDAO.FindById: the row whose id is `id`. */
  function FindById(t: Table, id: int, link: Link): (r: Ret<UserRow>)
    ensures r.err == Nil ==> r.value in t.rows && r.value.id == id
    ensures link.Up? ==> (r.err == Fail(RecordNotFound) <==> forall x :: x in t.rows ==> x.id != id)
    ensures link.Up? ==> r.err == Nil || r.err == Fail(RecordNotFound)
    ensures link.Down? ==> r == Ret(ZeroRow, Fail(link.kind))
  {
    FindBy(t, (x: UserRow) => x.id == id, link)
  }

  /** GormUserDAO.FindByAccount: the row whose account column equals
      `account`; a NULL account equals nothing, not even "". */
  function FindByAccount(t: Table, account: string, link: Link): (r: Ret<UserRow>)
    ensures r.err == Nil ==> r.value in t.rows && r.value.account == NullString(account, true)
    ensures link.Up? ==> (r.err == Fail(RecordNotFound) <==> forall x :: x in t.rows ==> x.account != NullString(account, true))
    ensures link.Up? ==> r.err == Nil || r.err == Fail(RecordNotFound)
    ensures link.Down? ==> r == Ret(ZeroRow, Fail(link.kind))
  {
    FindBy(t, (x: UserRow) => x.account == NullString(account, true), link)
  }

  /** GormUserDAO.FindByPhone: the row whose phone column equals `phone`. */
  function FindByPhone(t: Table, phone: string, link: Link): (r: Ret<UserRow>)
    ensures r.err == Nil ==> r.value in t.rows && r.value.phone == NullString(phone, true)
    ensures link.Up? ==> (r.err == Fail(RecordNotFound) <==> forall x :: x in t.rows ==> x.phone != NullString(phone, true))
    ensures link.Up? ==> r.err == Nil || r.err == Fail(RecordNotFound)
    ensures link.Down? ==> r == Ret(ZeroRow, Fail(link.kind))
  {
    FindBy(t, (x: UserRow) => x.phone == NullString(phone, true), link)
  }

  /** In a valid table every row is found by its id, its account and its phone. */
  lemma FindsUniqueRow(t: Table, row: UserRow)
    requires Valid(t) && row in t.rows
    ensures FindById(t, row.id, Up) == Ret(row, Nil)
    ensures row.account.valid ==> FindByAccount(t, row.account.s, Up) == Ret(row, Nil)
    ensures row.phone.valid ==> FindByPhone(t, row.phone.s, Up) == Ret(row, Nil)
  {
    var i :| 0 <= i < |t.rows| && t.rows[i] == row;
    forall y | y in t.rows && (y.id == row.id || Clash(y.account, row.account) || Clash(y.phone, row.phone))
      ensures y == row
    {
      var j :| 0 <= j < |t.rows| && t.rows[j] == y;
      assert Collide(t.rows[i], t.rows[j]) && Collide(t.rows[j], t.rows[i]);
    }
    FirstOfUnique(t.rows, (x: UserRow) => x.id, (x: UserRow) => x.id == row.id, row);
    if row.account.valid {
      FirstOfUnique(t.rows, (x: UserRow) => x.id, (x: UserRow) => x.account == NullString(row.account.s, true), row);
    }
    if row.phone.valid {
      FirstOfUnique(t.rows, (x: UserRow) => x.id, (x: UserRow) => x.phone == NullString(row.phone.s, true), row);
    }
  }

  function MergeString(prev: NullString, update: NullString): NullString
  {
    if update == NullStr then prev else StoredString(update)
  }

  function MergeNullInt(prev: NullInt64, update: NullInt64): NullInt64
  {
    if update == NullInt then prev else StoredInt(update)
  }

  function MergeInt(prev: int, update: int): int
  {
    if update == 0 then prev else update
  }

  /** What gorm's Updates(&u) makes of a stored row: every non-zero field of
      `u` is written, every zero field (NullString{}, NullInt64{}, 0, "")
      leaves the column alone; the id is the WHERE key, never written. */
  function Merge(prev: UserRow, u: UserRow): (m: UserRow)
    ensures m.id == prev.id
    ensures Normalized(prev) ==> Normalized(m)
  {
    UserRow(
      prev.id,
      MergeString(prev.username, u.username),
      MergeString(prev.account, u.account),
      if u.password == "" then prev.password else u.password,
      MergeString(prev.phone, u.phone),
      MergeString(prev.nickname, u.nickname),
      MergeInt(prev.weightKg, u.weightKg),
      MergeInt(prev.heightCm, u.heightCm),
      MergeString(prev.aboutMe, u.aboutMe),
      MergeNullInt(prev.birthday, u.birthday),
      MergeInt(prev.ctime, u.ctime),
      MergeInt(prev.utime, u.utime))
  }

  /** Zero-valued columns of the update leave the stored ones alone, and
      non-zero ones land as the database stores them. */
  lemma MergeOverwritesOnlyNonZero(prev: UserRow, u: UserRow)
    ensures u.account == NullStr ==> Merge(prev, u).account == prev.account
    ensures u.phone == NullStr ==> Merge(prev, u).phone == prev.phone
    ensures u.password == "" ==> Merge(prev, u).password == prev.password
    ensures u.birthday == NullInt ==> Merge(prev, u).birthday == prev.birthday
    ensures u.birthday != NullInt ==> Merge(prev, u).birthday == StoredInt(u.birthday)
    ensures Merge(prev, ZeroRow) == prev
  {
  }

  /** Applying the same update twice changes nothing the first did not. */
  lemma MergeIdempotent(prev: UserRow, u: UserRow)
    ensures Merge(Merge(prev, u), u) == Merge(prev, u)
  {
  }

  /** Some updated row would share a non-NULL account or phone with another row. */
  predicate UpdateClashes(rows: seq<UserRow>, id: int)
  {
    exists i, j :: 0 <= i < |rows| && 0 <= j < |rows| && i != j && rows[i].id == id
      && (Clash(rows[i].account, rows[j].account) || Clash(rows[i].phone, rows[j].phone))
  }

  /** GormUserDAO.UpdateNonZeroFields: UPDATE ... SET <non-zero fields>
      WHERE id = u.id. No matching row is not an error; a zero id is
      refused by gorm; a unique-index violation comes back as the raw MySQL
      error, which this method does not translate. */
  function UpdateNonZeroFields(t: Table, u: UserRow, link: Link): (e: Effect<Table>)
    ensures e.err != Nil ==> e.state == t
    ensures e.err == Nil ==> e.state.autoIncrement == t.autoIncrement && |e.state.rows| == |t.rows|
    ensures e.err == Nil ==> forall i :: 0 <= i < |t.rows| ==>
      e.state.rows[i] == (if t.rows[i].id == u.id then Merge(t.rows[i], u) else t.rows[i])
    ensures link.Up? && u.id == 0 ==> e.err == Fail(MissingWhereClause)
    ensures link.Up? && u.id != 0 ==> e.err == Nil || e.err == Fail(MySql(DuplicateEntry))
    ensures link.Down? ==> e.err == Fail(link.kind)
  {
    if link.Down? then Effect(t, Fail(link.kind))
    else if u.id == 0 then Effect(t, Fail(MissingWhereClause))
    else
      var rows := seq(|t.rows|, i requires 0 <= i < |t.rows| => if t.rows[i].id == u.id then Merge(t.rows[i], u) else t.rows[i]);
      if UpdateClashes(rows, u.id) then Effect(t, Fail(MySql(DuplicateEntry)))
      else Effect(Table(rows, t.autoIncrement), Nil)
  }

  /** The birthday a struct carries decides no error and no other column:
      two structs that differ only in birthday give the same outcome and
      tables that differ only in birthdays. */
  lemma UpdateIgnoresBirthday(t: Table, u: UserRow, v: UserRow, link: Link)
    requires u == v.(birthday := u.birthday)
    ensures var a, b := UpdateNonZeroFields(t, u, link), UpdateNonZeroFields(t, v, link);
      && a.err == b.err && a.state.autoIncrement == b.state.autoIncrement && |a.state.rows| == |b.state.rows|
      && forall i :: 0 <= i < |a.state.rows| ==> a.state.rows[i] == b.state.rows[i].(birthday := a.state.rows[i].birthday)
  {
    if link.Up? && u.id != 0 {
      var ru := seq(|t.rows|, i requires 0 <= i < |t.rows| => if t.rows[i].id == u.id then Merge(t.rows[i], u) else t.rows[i]);
      var rv := seq(|t.rows|, i requires 0 <= i < |t.rows| => if t.rows[i].id == v.id then Merge(t.rows[i], v) else t.rows[i]);
      assert forall i :: 0 <= i < |ru| ==> ru[i].id == rv[i].id && ru[i].account == rv[i].account && ru[i].phone == rv[i].phone;
      if UpdateClashes(ru, u.id) {
        var i, j :| 0 <= i < |ru| && 0 <= j < |ru| && i != j && ru[i].id == u.id
          && (Clash(ru[i].account, ru[j].account) || Clash(ru[i].phone, ru[j].phone));
        assert UpdateClashes(rv, v.id);
      }
      if UpdateClashes(rv, v.id) {
        var i, j :| 0 <= i < |rv| && 0 <= j < |rv| && i != j && rv[i].id == v.id
          && (Clash(rv[i].account, rv[j].account) || Clash(rv[i].phone, rv[j].phone));
        assert UpdateClashes(ru, u.id);
      }
    }
  }

  /** A successful update keeps the table's integrity. */
  lemma UpdatePreservesValid(t: Table, u: UserRow, link: Link)
    requires Valid(t)
    ensures Valid(UpdateNonZeroFields(t, u, link).state)
  {
    var e := UpdateNonZeroFields(t, u, link);
    if e.err == Nil {
      var rows := e.state.rows;
      forall i | 0 <= i < |rows| ensures rows[i].id < e.state.autoIncrement && Normalized(rows[i]) {
        assert rows[i].id == t.rows[i].id;
      }
      forall i, j | 0 <= i < j < |rows| ensures !Collide(rows[i], rows[j]) {
        assert !Collide(t.rows[i], t.rows[j]);
        assert rows[i].id == t.rows[i].id && rows[j].id == t.rows[j].id;
        if rows[i].id == u.id {
          assert !(Clash(rows[i].account, rows[j].account) || Clash(rows[i].phone, rows[j].phone));
        } else if rows[j].id == u.id {
          assert !(Clash(rows[j].account, rows[i].account) || Clash(rows[j].phone, rows[i].phone));
        }
      }
    }
  }

  /** An update of one id leaves what every other id reads untouched. */
  lemma UpdateKeepsOtherIds(t: Table, u: UserRow, link: Link, id: int)
    requires Valid(t) && id != u.id
    ensures FindById(UpdateNonZeroFields(t, u, link).state, id, Up) == FindById(t, id, Up)
  {
    var t' := UpdateNonZeroFields(t, u, link).state;
    UpdatePreservesValid(t, u, link);
    if exists i :: 0 <= i < |t.rows| && t.rows[i].id == id {
      var i :| 0 <= i < |t.rows| && t.rows[i].id == id;
      FindsUniqueRow(t, t.rows[i]);
      assert t'.rows[i] == t.rows[i];
      FindsUniqueRow(t', t.rows[i]);
    } else {
      assert forall x :: x in t'.rows ==> x.id != id by {
        forall x | x in t'.rows ensures x.id != id {
          var j :| 0 <= j < |t'.rows| && t'.rows[j] == x;
          assert t'.rows[j].id == t.rows[j].id;
        }
      }
    }
  }

  /** An insert leaves what every id other than the inserted one reads untouched. */
  lemma InsertKeepsOtherIds(t: Table, u: UserRow, nowMs: int, link: Link, id: int)
    requires Valid(t) && id != NewRow(t, u, nowMs).id
    ensures FindById(Insert(t, u, nowMs, link).state, id, Up) == FindById(t, id, Up)
  {
    var t' := Insert(t, u, nowMs, link).state;
    InsertPreservesValid(t, u, nowMs, link);
    if exists i :: 0 <= i < |t.rows| && t.rows[i].id == id {
      var i :| 0 <= i < |t.rows| && t.rows[i].id == id;
      FindsUniqueRow(t, t.rows[i]);
      assert t'.rows[i] == t.rows[i];
      FindsUniqueRow(t', t.rows[i]);
    }
  }
}

=== FILE: user_handler.dfy ===
/** UserHandler (internal/web/user.go): request validation and the mapping
    from service outcomes to response codes. Each handler takes the
    outcomes of the calls it makes as inputs and reports which calls it
    made; request binding failures are not modelled. */
module UserHandler {
  import opened Base
  import opened Text
  import opened Clock
  import opened Domain
  import opened Web
  import UserDao
  import UserRepository
  import UserService
  import CodeService

  /** The code namespace of SMS login. */
  const BizLogin: string := "login"

  /** The longest AboutMe accepted, in UTF-8 bytes. */
  const MaxAboutMe: int := 1024

  /** regexp2's `$` (without the Multiline option) also matches just before
      a final "\n", so the patterns are checked on the string without it. */
  function WithoutFinalNewline(s: string): (t: string)
    ensures |t| <= |s| && t == s[..|t|]
    ensures |s| - 1 <= |t|
  {
    if 0 < |s| && s[|s| - 1] == '\n' then s[..|s| - 1] else s
  }

  /** `^1\d{10}$` on the string proper: a '1' and ten digits. */
  predicate PhoneShape(t: string)
  {
    |t| == 11 && t[0] == '1' && AllDigits(t[1..])
  }

  /** The phone validator `^1\d{10}$`. */
  predicate IsPhone(s: string)
  {
    PhoneShape(WithoutFinalNewline(s))
  }

  /** Exactly "1" and ten digits, optionally followed by one newline. */
  lemma IsPhoneIff(s: string)
    ensures IsPhone(s) <==> exists d :: |d| == 10 && AllDigits(d) && (s == "1" + d || s == "1" + d + "\n")
  {
    var t := WithoutFinalNewline(s);
    if IsPhone(s) {
      var d := t[1..];
      assert t == "1" + d;
      if t != s {
        assert s == t + "\n";
        assert s == "1" + d + "\n";
      }
    }
    if exists d :: |d| == 10 && AllDigits(d) && (s == "1" + d || s == "1" + d + "\n") {
      var d :| |d| == 10 && AllDigits(d) && (s == "1" + d || s == "1" + d + "\n");
      if s == "1" + d {
        assert s[|s| - 1] == d[9];
        assert t == s;
      } else {
        assert t == "1" + d;
      }
      assert t[1..] == d;
    }
  }

  predicate IsLetter(c: char)
  {
    'A' <= c <= 'Z' || 'a' <= c <= 'z'
  }

  /** The special characters the password pattern lists. */
  predicate IsSpecial(c: char)
  {
    c in "$@!%*#?&"
  }

  predicate PasswordChar(c: char)
  {
    IsLetter(c) || IsDigit(c) || IsSpecial(c)
  }

  /** The password pattern on the string proper: at least eight allowed
      characters, among them a letter, a digit and a special character. */
  predicate PasswordShape(t: string)
  {
    && 8 <= |t|
    && (forall i :: 0 <= i < |t| ==> PasswordChar(t[i]))
    && (exists i :: 0 <= i < |t| && IsLetter(t[i]))
    && (exists i :: 0 <= i < |t| && IsDigit(t[i]))
    && (exists i :: 0 <= i < |t| && IsSpecial(t[i]))
  }

  /** The password validator
      `^(?=.*[A-Za-z])(?=.*\d)(?=.*[$@$!%*#?&])[A-Za-z\d$@$!%*#?&]{8,}$`. */
  predicate IsPassword(s: string)
  {
    PasswordShape(WithoutFinalNewline(s))
  }

  /** For strings that do not end in a newline the validators are the plain rules. */
  lemma ValidatorsWithoutNewline(s: string)
    requires |s| == 0 || s[|s| - 1] != '\n'
    ensures IsPhone(s) <==> PhoneShape(s)
    ensures IsPassword(s) <==> PasswordShape(s)
  {
  }

  /** A password is accepted exactly when it has the password shape,
      optionally followed by one newline. */
  lemma IsPasswordIff(s: string)
    ensures IsPassword(s) <==> exists t :: PasswordShape(t) && (s == t || s == t + "\n")
  {
    var w := WithoutFinalNewline(s);
    if IsPassword(s) {
      if w != s {
        assert s == w + "\n";
      }
      assert PasswordShape(w) && (s == w || s == w + "\n");
    }
    if exists t :: PasswordShape(t) && (s == t || s == t + "\n") {
      var t :| PasswordShape(t) && (s == t || s == t + "\n");
      if s == t {
        assert PasswordChar(s[|s| - 1]);
        assert w == t;
      } else {
        assert s[..|s| - 1] == t;
        assert w == t;
      }
    }
  }

  /** A few passwords the rule accepts and refuses. */
  lemma PasswordExamples()
    ensures IsPassword("abc12345!")
    ensures !IsPassword("abcdefgh1")
    ensures !IsPassword("ab1!")
    ensures !IsPassword("abc 1234!")
  {
    var s := "abc12345!";
    assert IsLetter(s[0]) && IsDigit(s[3]) && IsSpecial(s[8]);
    var u := "abcdefgh1";
    assert forall i :: 0 <= i < |u| ==> !IsSpecial(u[i]);
    assert !PasswordChar("abc 1234!"[3]);
  }

  /** UserHandler.SendSMSLoginCode: an empty or malformed phone is refused
      without sending; otherwise `send` is the code service's error. */
  function SendSMSLoginCode(phone: string, send: Error): (r: Reply<()>)
    ensures r.status == StatusOK && r.data.None?
    ensures r.calls == (if IsPhone(phone) then [SendCode(BizLogin, phone)] else [])
    ensures r.code == CodeOK <==> IsPhone(phone) && send == Nil
    ensures r.code == CodeTooOften <==> IsPhone(phone) && send == Fail(CodeSendTooMany)
    ensures r.code == CodeBadInput <==> !IsPhone(phone)
    ensures r.code in {CodeOK, CodeTooOften, CodeBadInput, CodeFailure}
  {
    if phone == "" then Reply(StatusOK, CodeBadInput, None, [])
    else if !IsPhone(phone) then Reply(StatusOK, CodeBadInput, None, [])
    else
      var calls := [SendCode(BizLogin, phone)];
      if send == Nil then Reply(StatusOK, CodeOK, None, calls)
      else if send == Fail(CodeSendTooMany) then Reply(StatusOK, CodeTooOften, None, calls)
      else Reply(StatusOK, CodeFailure, None, calls)
  }

  /** UserHandler.SignUp: the two passwords must agree, then the password
      rule applies; the confirmed password goes to the service, whose
      duplicate error means the account is taken. */
  function SignUp(account: string, password: string, confirm: string, signup: Error): (r: Reply<()>)
    ensures r.status == StatusOK && r.data.None?
    ensures r.calls == (if password == confirm && IsPassword(password) then [SignupCall(account, confirm)] else [])
    ensures r.code == CodeOK <==> password == confirm && IsPassword(password) && signup == Nil
    ensures r.code == CodeBadInput <==> password != confirm || !IsPassword(password) || signup == Fail(UserDuplicate)
    ensures r.code in {CodeOK, CodeBadInput, CodeFailure}
  {
    if password != confirm then Reply(StatusOK, CodeBadInput, None, [])
    else if !IsPassword(password) then Reply(StatusOK, CodeBadInput, None, [])
    else
      var calls := [SignupCall(account, confirm)];
      if signup == Fail(UserDuplicate) then Reply(StatusOK, CodeBadInput, None, calls)
      else if signup != Nil then Reply(StatusOK, CodeFailure, None, calls)
      else Reply(StatusOK, CodeOK, None, calls)
  }

  /** UserHandler.Login: wrong credentials give 14001 and no token;
      otherwise a login token is set for the returned user's id. */
  function Login(account: string, password: string, login: Ret<User>, setToken: Error): (r: Reply<()>)
    ensures r.status == StatusOK && r.data.None?
    ensures r.calls == [LoginCall(account, password)] + (if login.err == Fail(InvalidUserOrPassword) then [] else [SetLoginToken(login.value.id)])
    ensures r.code == CodeLogin <==> login.err == Fail(InvalidUserOrPassword)
    ensures r.code == CodeOK <==> login.err != Fail(InvalidUserOrPassword) && setToken == Nil
    ensures r.code in {CodeOK, CodeLogin, CodeFailure}
  {
    var calls := [LoginCall(account, password)];
    if login.err == Fail(InvalidUserOrPassword) then Reply(StatusOK, CodeLogin, None, calls)
    else
      var calls' := calls + [SetLoginToken(login.value.id)];
      if setToken != Nil then Reply(StatusOK, CodeFailure, None, calls')
      else Reply(StatusOK, CodeOK, None, calls')
  }

  /** UserHandler.LoginSMS: the code is verified first; an error gives
      25001 and a wrong code 14002, both before any user lookup. Then the
      user is found or created, and a token is set for a new session
      `ssid` (a fresh UUID) and that user's id. */
  function LoginSMS(phone: string, code: string, verdict: Ret<bool>, found: Ret<User>, ssid: string, setToken: Error)
    : (r: Reply<()>)
    ensures r.status == StatusOK && r.data.None?
    ensures verdict.err != Nil ==> r.code == CodeFailure && r.calls == [VerifyCode(BizLogin, phone, code)]
    ensures verdict.err == Nil && !verdict.value ==> r.code == CodeBadInput && r.calls == [VerifyCode(BizLogin, phone, code)]
    ensures FindOrCreateCall(phone) in r.calls <==> verdict == Ret(true, Nil)
    ensures SetJwtToken(ssid, found.value.id) in r.calls <==> verdict == Ret(true, Nil) && found.err == Nil
    ensures r.code == CodeOK <==> verdict == Ret(true, Nil) && found.err == Nil && setToken == Nil
    ensures r.code in {CodeOK, CodeBadInput, CodeFailure}
  {
    var c1 := [VerifyCode(BizLogin, phone, code)];
    if verdict.err != Nil then Reply(StatusOK, CodeFailure, None, c1)
    else if !verdict.value then Reply(StatusOK, CodeBadInput, None, c1)
    else
      var c2 := c1 + [FindOrCreateCall(phone)];
      if found.err != Nil then Reply(StatusOK, CodeFailure, None, c2)
      else
        var c3 := c2 + [SetJwtToken(ssid, found.value.id)];
        if setToken != Nil then Reply(StatusOK, CodeFailure, None, c3)
        else Reply(StatusOK, CodeOK, None, c3)
  }

  /** What jwt.ParseWithClaims made of a refresh token. */
  datatype RefreshParsed = RefreshParseError | RefreshParsed(valid: bool, claims: RefreshClaims)

  /** UserHandler.RefreshToken: a valid refresh token whose session is live
      gets a new access token for the same session and user. Every answer,
      success included, is sent with HTTP status 401. */
  function RefreshToken(parsed: RefreshParsed, session: Error, setToken: Error): (r: Reply<()>)
    ensures r.status == StatusUnauthorized && r.data.None?
    ensures r.code == CodeOK || r.code == CodeLogin
    ensures r.code == CodeOK <==> parsed.RefreshParsed? && parsed.valid && session == Nil && setToken == Nil
    ensures r.calls != [] ==> parsed.RefreshParsed? && parsed.valid && r.calls[0] == CheckSession(parsed.claims.ssid)
    ensures |r.calls| == 2 <==> parsed.RefreshParsed? && parsed.valid && session == Nil
    ensures |r.calls| == 2 ==> r.calls[1] == SetJwtToken(parsed.claims.ssid, parsed.claims.id)
  {
    if parsed.RefreshParseError? || !parsed.valid then Reply(StatusUnauthorized, CodeLogin, None, [])
    else
      var c1 := [CheckSession(parsed.claims.ssid)];
      if session != Nil then Reply(StatusUnauthorized, CodeLogin, None, c1)
      else
        var c2 := c1 + [SetJwtToken(parsed.claims.ssid, parsed.claims.id)];
        if setToken != Nil then Reply(StatusUnauthorized, CodeLogin, None, c2)
        else Reply(StatusUnauthorized, CodeOK, None, c2)
  }

  /** The edit request's body. */
  datatype EditReq = EditReq(username: string, weightKg: int, heightCm: int, nickname: string, birthday: string, aboutMe: string)

  /** The user Edit hands to the service: the id from the token claims, the
      editable fields from the request, everything else zero. */
  function EditedUser(claims: UserClaims, req: EditReq, birthday: Instant): (u: User)
    ensures u.id == claims.id && u.account == "" && u.phone == "" && u.password == ""
  {
    User(claims.id, req.username, "", "", "", req.nickname, req.weightKg, req.heightCm, birthday, req.aboutMe, ZeroInstant, ZeroInstant)
  }

  /** UserHandler.Edit: an AboutMe over 1024 bytes or a birthday that is
      given but not a "2006-01-02" date is refused; an empty birthday
      means the zero time. `parseDate` is time.Parse with that layout. */
  function Edit(claims: UserClaims, req: EditReq, parseDate: string -> Option<Instant>, update: Error): (r: Reply<()>)
    ensures r.status == StatusOK && r.data.None?
    ensures r.code == CodeBadInput <==> MaxAboutMe < Utf8Len(req.aboutMe) || (req.birthday != "" && parseDate(req.birthday).None?)
    ensures r.code == CodeBadInput <==> r.calls == []
    ensures r.calls != [] ==>
      && |r.calls| == 1 && r.calls[0].UpdateInfoCall?
      && r.calls[0].user.id == claims.id
      && (req.birthday == "" ==> r.calls[0].user.birthday == ZeroInstant)
      && (req.birthday != "" ==> Some(r.calls[0].user.birthday) == parseDate(req.birthday))
    ensures r.code == CodeEditOK <==> r.calls != [] && update == Nil
  {
    if MaxAboutMe < Utf8Len(req.aboutMe) then Reply(StatusOK, CodeBadInput, None, [])
    else
      var birthday := if req.birthday == "" then Some(ZeroInstant) else parseDate(req.birthday);
      if birthday.None? then Reply(StatusOK, CodeBadInput, None, [])
      else
        var calls := [UpdateInfoCall(EditedUser(claims, req, birthday.value))];
        if update != Nil then Reply(StatusOK, CodeFailure, None, calls)
        else Reply(StatusOK, CodeEditOK, None, calls)
  }

  /** Fed by the user service, Login sets a token only for the user stored
      under the account, and only when bcrypt accepts the password. */
  lemma LoginTokenOnlyOnMatch(st: UserRepository.State, account: string, password: string, link: Link,
                              matches: (string, string) -> bool, setToken: Error)
    ensures
      var r := Login(account, password, UserService.Login(st, account, password, link, matches).ret, setToken);
      |r.calls| == 2 ==>
        exists row :: row in st.db.rows && row.account == UserDao.NullString(account, true)
          && UserService.BcryptAccepts(row.password, password, matches) && r.calls[1] == SetLoginToken(row.id)
  {
    var s := UserService.Login(st, account, password, link, matches);
    if s.ret.err == Nil {
      var row :| row in st.db.rows && row.account == UserDao.NullString(account, true) && link.Up?
        && s.ret.value == UserRepository.EntityToDomain(row) && UserService.BcryptAccepts(row.password, password, matches);
      assert s.ret.value.id == row.id;
    }
  }

  /** Fed by the code service, a locked-out phone is told its code is
      wrong, and no user is looked up or signed in. */
  lemma LockoutReadsAsWrongCode(phone: string, code: string, repoSaid: bool, found: Ret<User>, ssid: string, setToken: Error)
    ensures
      var r := LoginSMS(phone, code, CodeService.Verify(Ret(repoSaid, Fail(CodeVerifyTooManyTimes))), found, ssid, setToken);
      r.code == CodeBadInput && r.calls == [VerifyCode(BizLogin, phone, code)]
  {
  }
}

=== FILE: user_repository.dfy ===
/** CachedUserRepository (internal/repository/user.go): the user DAO with
    a read-through Redis cache in front of FindById, invalidated after
    every update, and the conversions between table rows and domain users. */
module UserRepository {
  import opened Base
  import opened Clock
  import opened Domain
  import Redis
  import UserCache
  import opened UserDao

  /** The two stores the repository talks to. */
  datatype State = State(db: Table, cache: Redis.Keyspace<User>)

  /** sql.NullString{String: s, Valid: s != ""}. */
  function Nullable(s: string): (n: NullString)
    ensures n == NullStr <==> s == ""
    ensures n.s == s
  {
    NullString(s, s != "")
  }

  /** The birthday column for a domain birthday: NULL for the zero time,
      Unix milliseconds otherwise. */
  function BirthdayColumn(b: Instant): (n: NullInt64)
    ensures n == NullInt <==> IsZero(b)
    ensures n.valid ==> n.i == UnixMilli(b)
  {
    if IsZero(b) then NullInt else NullInt64(UnixMilli(b), true)
  }

  /** The birthday column as domainToEntity builds it: the milliseconds of
      the zero time stay in the struct beside Valid = false. */
  function BirthdayColumnAsWritten(b: Instant): (n: NullInt64)
    ensures n.valid <==> !IsZero(b)
    ensures n.i == UnixMilli(b)
  {
    NullInt64(UnixMilli(b), !IsZero(b))
  }

  /** domainToEntity: empty strings become NULL, a zero birthday NULL;
      Ctime and Utime are left zero, so an update never writes them. */
  function DomainToEntityIntended(u: User): (e: UserRow)
    ensures e.id == u.id && e.password == u.password
    ensures e.ctime == 0 && e.utime == 0
    ensures e.account == NullStr <==> u.account == ""
    ensures e.phone == NullStr <==> u.phone == ""
    ensures e.birthday == NullInt <==> IsZero(u.birthday)
  {
    UserRow(u.id, Nullable(u.username), Nullable(u.account), u.password, Nullable(u.phone),
            Nullable(u.nickname), u.weightKg, u.heightCm, Nullable(u.aboutMe), BirthdayColumn(u.birthday), 0, 0)
  }

  /** domainToEntity as the repository writes it; differs from
      DomainToEntityIntended only in the birthday of a user whose birthday is zero. */
  function DomainToEntityAsWritten(u: User): (e: UserRow)
    ensures e.birthday != NullInt
    ensures e == DomainToEntityIntended(u).(birthday := e.birthday)
  {
    DomainToEntityIntended(u).(birthday := BirthdayColumnAsWritten(u.birthday))
  }

  /** entityToDomain: NULL strings read as "", a NULL birthday as the zero
      time; Ctime comes from milliseconds and Utime is not filled in. */
  function EntityToDomain(e: UserRow): (u: User)
    ensures u.id == e.id && u.password == e.password
    ensures u.ctime == FromUnixMilli(e.ctime) && u.utime == ZeroInstant
    ensures !e.birthday.valid ==> IsZero(u.birthday)
  {
    User(e.id, e.username.s, e.account.s, e.password, e.phone.s, e.nickname.s, e.weightKg, e.heightCm,
         if e.birthday.valid then FromUnixMilli(e.birthday.i) else ZeroInstant,
         e.aboutMe.s, FromUnixMilli(e.ctime), ZeroInstant)
  }

  /** Writing a user and reading the row back returns the user with the
      birthday cut to the millisecond, Ctime at the Unix epoch and Utime
      zero: nothing else is lost. */
  lemma DomainRoundTrip(u: User)
    ensures EntityToDomain(Stored(DomainToEntityIntended(u)))
         == u.(birthday := TruncateMilli(u.birthday), ctime := FromUnixMilli(0), utime := ZeroInstant)
    ensures EntityToDomain(Stored(DomainToEntityAsWritten(u)))
         == u.(birthday := TruncateMilli(u.birthday), ctime := FromUnixMilli(0), utime := ZeroInstant)
  {
    MilliRoundTrip(u.birthday);
    ZeroInstantIsWhole();
  }

  /** A non-NULL string column holds a non-empty string, as every column
      the repository writes does. */
  predicate SetMeansNonEmpty(n: NullString)
  {
    n.valid ==> n.s != ""
  }

  /** Reading a stored row and writing it back returns the row without its
      timestamps, unless its birthday is the one instant that reads as the
      zero time. */
  lemma EntityRoundTrip(e: UserRow)
    requires Normalized(e)
    requires SetMeansNonEmpty(e.username) && SetMeansNonEmpty(e.account) && SetMeansNonEmpty(e.phone)
    requires SetMeansNonEmpty(e.nickname) && SetMeansNonEmpty(e.aboutMe)
    requires e.birthday.valid ==> e.birthday.i != UnixMilli(ZeroInstant)
    ensures DomainToEntityIntended(EntityToDomain(e)) == e.(ctime := 0, utime := 0)
  {
    if e.birthday.valid {
      UnixMilliOfFromUnixMilli(e.birthday.i);
    }
  }

  /** The user the database holds under `id`, as the repository converts it. */
  function StoreView(db: Table, id: int): Option<User>
  {
    var f := UserDao.FindById(db, id, Up);
    if f.err == Nil then Some(EntityToDomain(f.value)) else None
  }

  /** Every live cache entry shows what the database holds for its id. */
  ghost predicate Coherent(st: State, now: int)
  {
    forall id :: Redis.Live(st.cache, UserCache.Key(id), now) ==>
      StoreView(st.db, id) == Some(st.cache[UserCache.Key(id)].value)
  }

  /** Entries only expire as time passes, so coherence lasts. */
  lemma CoherentLater(st: State, now: int, later: int)
    requires Coherent(st, now) && now <= later
    ensures Coherent(st, later)
  {
  }

  /** CachedUserRepository.FindById: the cached user on a hit; on a miss
      (redis.Nil) the row from the DAO, converted and written back to the
      cache, ignoring the write's error; any other error is returned with
      the zero user. */
  function FindById(st: State, id: int, now: int, getLink: Link, findLink: Link, setLink: Link): (s: Step<User, State>)
    ensures s.state.db == st.db
    ensures s.ret.err != Nil ==> s.ret.value == ZeroUser && s.state == st
    ensures Redis.Live(st.cache, UserCache.Key(id), now) && getLink.Up? ==>
      s == Step(Ret(st.cache[UserCache.Key(id)].value, Nil), st, [CacheGet])
    ensures DaoFindById in s.calls <==>
      (getLink.Up? && !Redis.Live(st.cache, UserCache.Key(id), now)) || getLink == Down(RedisNil)
    ensures DaoFindById in s.calls && s.ret.err == Nil ==>
      StoreView(st.db, id) == Some(s.ret.value) && s.calls == [CacheGet, DaoFindById, CacheSet]
    ensures DaoFindById in s.calls && findLink.Up? ==> (s.ret.err == Nil <==> StoreView(st.db, id).Some?)
    ensures DaoFindById in s.calls && findLink.Up? && StoreView(st.db, id).None? ==> s.ret.err == Fail(RecordNotFound)
    ensures DaoFindById in s.calls && findLink.Down? ==> s.ret.err == Fail(findLink.kind)
    ensures getLink.Down? && getLink.kind != RedisNil ==> s == Step(Ret(ZeroUser, Fail(getLink.kind)), st, [CacheGet])
    ensures s.state.cache != st.cache ==> s.ret.err == Nil && CacheSet in s.calls
  {
    var g := UserCache.Get(st.cache, id, now, getLink);
    if g.err == Nil then Step(g, st, [CacheGet])
    else if g.err == Fail(RedisNil) then
      var f := UserDao.FindById(st.db, id, findLink);
      if f.err != Nil then Step(Ret(ZeroUser, f.err), st, [CacheGet, DaoFindById])
      else
        var u := EntityToDomain(f.value);
        var w := UserCache.Set(st.cache, u, now, setLink);
        Step(Ret(u, Nil), st.(cache := w.state), [CacheGet, DaoFindById, CacheSet])
    else Step(Ret(ZeroUser, g.err), st, [CacheGet])
  }

  /** With the cache coherent and Redis and MySQL reachable, FindById
      returns exactly what the database holds and keeps the cache coherent. */
  lemma FindByIdAgreesWithStore(st: State, id: int, now: int, setLink: Link)
    requires Coherent(st, now)
    ensures var s := FindById(st, id, now, Up, Up, setLink);
      && Coherent(s.state, now)
      && (StoreView(st.db, id).Some? ==> s.ret == Ret(StoreView(st.db, id).value, Nil))
      && (StoreView(st.db, id).None? ==> s.ret == Ret(ZeroUser, Fail(RecordNotFound)))
  {
    var s := FindById(st, id, now, Up, Up, setLink);
    if s.state.cache != st.cache {
      var k := UserCache.Key(id);
      forall other | Redis.Live(s.state.cache, UserCache.Key(other), now)
        ensures StoreView(s.state.db, other) == Some(s.state.cache[UserCache.Key(other)].value)
      {
        UserCache.KeyInjective(id, other);
      }
    }
  }

  /** A read that missed the cache and found the user is followed, within
      the expiration, by a read served from the cache alone with the same user. */
  lemma SecondReadHits(st: State, id: int, now: int, later: int, findLink: Link, getLink: Link)
    requires now <= later < now + UserCache.Expiration
    requires getLink.Up? && !Redis.Live(st.cache, UserCache.Key(id), now)
    requires FindById(st, id, now, Up, findLink, Up).ret.err == Nil
    ensures
      var first := FindById(st, id, now, Up, findLink, Up);
      FindById(first.state, id, later, getLink, findLink, Up) == Step(first.ret, first.state, [CacheGet])
  {
    var first := FindById(st, id, now, Up, findLink, Up);
    assert first.ret.value.id == id;
  }

  /** Update's two commands for the struct `e` handed to the DAO: write the
      non-zero fields, then delete the cache entry of `e.id`; a DAO error is
      returned at once and the cache is left alone. */
  function WriteThenInvalidate(st: State, e: UserRow, updateLink: Link, delLink: Link): (s: Step<(), State>)
    ensures var w := UpdateNonZeroFields(st.db, e, updateLink);
      && s.calls == (if w.err == Nil then [DaoUpdate, CacheDelete] else [DaoUpdate])
      && (CacheDelete !in s.calls ==> s.state == st && s.ret.err == w.err && s.ret.err != Nil)
      && (CacheDelete in s.calls ==> s.state.db == w.state && s.ret.err == (if delLink.Up? then Nil else Fail(delLink.kind)))
    ensures CacheDelete in s.calls && delLink.Up? ==> UserCache.Key(e.id) !in s.state.cache
    ensures delLink.Down? ==> s.state.cache == st.cache
    ensures forall k :: k != UserCache.Key(e.id) ==>
      (k in s.state.cache <==> k in st.cache) && (k in st.cache ==> s.state.cache[k] == st.cache[k])
  {
    var w := UpdateNonZeroFields(st.db, e, updateLink);
    if w.err != Nil then Step(Ret((), w.err), st, [DaoUpdate])
    else
      var d := UserCache.Delete(st.cache, e.id, delLink);
      Step(Ret((), d.err), State(w.state, d.state), [DaoUpdate, CacheDelete])
  }

  /** CachedUserRepository.Update as written: the DAO receives
      domainToEntity's struct, whose birthday is never the zero NullInt64. */
  function Update(st: State, u: User, updateLink: Link, delLink: Link): (s: Step<(), State>)
    ensures var w := UpdateNonZeroFields(st.db, DomainToEntityAsWritten(u), updateLink);
      && s.calls == (if w.err == Nil then [DaoUpdate, CacheDelete] else [DaoUpdate])
      && (CacheDelete !in s.calls ==> s.state == st && s.ret.err == w.err && s.ret.err != Nil)
      && (CacheDelete in s.calls ==> s.state.db == w.state && s.ret.err == (if delLink.Up? then Nil else Fail(delLink.kind)))
    ensures CacheDelete in s.calls && delLink.Up? ==> UserCache.Key(u.id) !in s.state.cache
    ensures delLink.Down? ==> s.state.cache == st.cache
    ensures forall k :: k != UserCache.Key(u.id) ==>
      (k in s.state.cache <==> k in st.cache) && (k in st.cache ==> s.state.cache[k] == st.cache[k])
  {
    WriteThenInvalidate(st, DomainToEntityAsWritten(u), updateLink, delLink)
  }

  /** Update with the corrected conversion: the same commands, the same
      result and the same cache, and a table that differs from the one
      Update leaves only in birthdays. */
  function UpdateIntended(st: State, u: User, updateLink: Link, delLink: Link): (s: Step<(), State>)
    ensures var a := Update(st, u, updateLink, delLink);
      && s.calls == a.calls && s.ret == a.ret && s.state.cache == a.state.cache
      && |s.state.db.rows| == |a.state.db.rows|
      && forall i :: 0 <= i < |s.state.db.rows| ==>
           s.state.db.rows[i] == a.state.db.rows[i].(birthday := s.state.db.rows[i].birthday)
  {
    UpdateIgnoresBirthday(st.db, DomainToEntityIntended(u), DomainToEntityAsWritten(u), updateLink);
    WriteThenInvalidate(st, DomainToEntityIntended(u), updateLink, delLink)
  }

  /** When both commands succeed, an update keeps a valid database and a
      coherent cache; when the database refuses, nothing changes. */
  lemma UpdatePreservesCoherent(st: State, u: User, now: int, updateLink: Link)
    requires Valid(st.db) && Coherent(st, now)
    ensures var s := Update(st, u, updateLink, Up); Valid(s.state.db) && Coherent(s.state, now)
  {
    var s := Update(st, u, updateLink, Up);
    UpdatePreservesValid(st.db, DomainToEntityAsWritten(u), updateLink);
    forall id | Redis.Live(s.state.cache, UserCache.Key(id), now)
      ensures StoreView(s.state.db, id) == Some(s.state.cache[UserCache.Key(id)].value)
    {
      if s.state != st {
        UserCache.KeyInjective(id, u.id);
        UpdateKeepsOtherIds(st.db, DomainToEntityAsWritten(u), updateLink, id);
      }
    }
  }

  /** When the database write succeeds but the DEL does not reach Redis,
      a live entry for the user survives: once the write changed what the
      table shows for that id, the cache is no longer coherent. */
  lemma UpdateFailedDeleteLeavesStale(st: State, u: User, now: int, kind: Kind)
    requires Redis.Live(st.cache, UserCache.Key(u.id), now)
    ensures var s, w := Update(st, u, Up, Down(kind)), UpdateNonZeroFields(st.db, DomainToEntityAsWritten(u), Up);
      && s.state.cache == st.cache
      && (w.err == Nil ==> s.ret.err == Fail(kind) && s.state.db == w.state)
      && (w.err == Nil && Coherent(st, now) && StoreView(w.state, u.id) != StoreView(st.db, u.id) ==> !Coherent(s.state, now))
  {
    var s := Update(st, u, Up, Down(kind));
    if Coherent(st, now) {
      assert StoreView(st.db, u.id) == Some(st.cache[UserCache.Key(u.id)].value);
    }
  }

  /** After a successful update the next read misses the cache and
      returns the stored row merged with the non-zero fields of the struct
      domainToEntity builds, birthday included. */
  lemma ReadAfterUpdate(st: State, u: User, row: UserRow, now: int, setLink: Link)
    requires Valid(st.db) && row in st.db.rows && row.id == u.id
    requires Update(st, u, Up, Up).ret.err == Nil
    ensures var s := Update(st, u, Up, Up);
            FindById(s.state, u.id, now, Up, Up, setLink).ret == Ret(EntityToDomain(Merge(row, DomainToEntityAsWritten(u))), Nil)
  {
    var db' := Update(st, u, Up, Up).state.db;
    UpdatePreservesValid(st.db, DomainToEntityAsWritten(u), Up);
    var i :| 0 <= i < |st.db.rows| && st.db.rows[i] == row;
    assert db'.rows[i] == Merge(row, DomainToEntityAsWritten(u));
    FindsUniqueRow(db', db'.rows[i]);
  }

  /** CachedUserRepository.Create: inserts a row holding only the account,
      the phone (each NULL when empty) and the password hash. */
  function Create(st: State, u: User, nowMs: int, link: Link): (s: Step<(), State>)
    ensures s.calls == [DaoInsert] && s.state.cache == st.cache
    ensures s.ret.err == Nil ==> s.state.db.rows == st.db.rows + [NewRow(st.db, CreatedRow(u), nowMs)]
    ensures s.ret.err != Nil ==> s.state == st
    ensures link.Up? ==> (s.ret.err == Fail(UserDuplicate) <==> Conflicts(st.db.rows, NewRow(st.db, CreatedRow(u), nowMs)))
    ensures link.Up? ==> (s.ret.err == Nil <==> !Conflicts(st.db.rows, NewRow(st.db, CreatedRow(u), nowMs)))
    ensures link.Down? && link.kind != MySql(DuplicateEntry) ==> s.ret.err == Fail(link.kind)
  {
    var w := Insert(st.db, CreatedRow(u), nowMs, link);
    Step(Ret((), w.err), st.(db := w.state), [DaoInsert])
  }

  /** The struct Create hands to the DAO. */
  function CreatedRow(u: User): (r: UserRow)
    ensures r.id == 0 && r.password == u.password
    ensures r.account == Nullable(u.account) && r.phone == Nullable(u.phone)
    ensures r == ZeroRow.(account := r.account, phone := r.phone, password := r.password)
  {
    ZeroRow.(account := Nullable(u.account), phone := Nullable(u.phone), password := u.password)
  }

  /** A new user gets the next id, which no live cache entry can name, so
      creating a user keeps the cache coherent. */
  lemma CreatePreservesCoherent(st: State, u: User, nowMs: int, now: int, link: Link)
    requires Valid(st.db) && Coherent(st, now)
    ensures var s := Create(st, u, nowMs, link); Valid(s.state.db) && Coherent(s.state, now)
  {
    var s := Create(st, u, nowMs, link);
    InsertPreservesValid(st.db, CreatedRow(u), nowMs, link);
    forall id | Redis.Live(s.state.cache, UserCache.Key(id), now)
      ensures StoreView(s.state.db, id) == Some(s.state.cache[UserCache.Key(id)].value)
    {
      assert StoreView(st.db, id).Some?;
      var row := UserDao.FindById(st.db, id, Up).value;
      assert row in st.db.rows;
      assert id != NewRow(st.db, CreatedRow(u), nowMs).id;
      InsertKeepsOtherIds(st.db, CreatedRow(u), nowMs, link, id);
    }
  }

  /** CachedUserRepository.FindByPhone: the DAO's row converted, error or not. */
  function FindByPhone(st: State, phone: string, link: Link): (s: Step<User, State>)
    ensures s.state == st && s.calls == [DaoFindByPhone]
    ensures s.ret.err == Nil ==> s.ret.value.phone == phone && exists r :: r in st.db.rows && s.ret.value == EntityToDomain(r)
    ensures s.ret.err != Nil ==> s.ret.value == EntityToDomain(ZeroRow)
    ensures link.Up? ==> (s.ret.err == Fail(RecordNotFound) <==> forall r :: r in st.db.rows ==> r.phone != NullString(phone, true))
  {
    var f := UserDao.FindByPhone(st.db, phone, link);
    Step(Ret(EntityToDomain(f.value), f.err), st, [DaoFindByPhone])
  }

  /** CachedUserRepository.FindByAccount: the DAO's row converted, error or not. */
  function FindByAccount(st: State, account: string, link: Link): (s: Step<User, State>)
    ensures s.state == st && s.calls == [DaoFindByAccount]
    ensures s.ret.err == Nil ==> s.ret.value.account == account && exists r :: r in st.db.rows && s.ret.value == EntityToDomain(r)
    ensures s.ret.err != Nil ==> s.ret.value == EntityToDomain(ZeroRow)
    ensures link.Up? ==> (s.ret.err == Fail(RecordNotFound) <==> forall r :: r in st.db.rows ==> r.account != NullString(account, true))
  {
    var f := UserDao.FindByAccount(st.db, account, link);
    Step(Ret(EntityToDomain(f.value), f.err), st, [DaoFindByAccount])
  }

  /** With the corrected conversion, an update that leaves the birthday
      zero keeps every stored birthday. */
  lemma UpdateKeepsBirthday(st: State, u: User, updateLink: Link, delLink: Link, i: int)
    requires IsZero(u.birthday) && 0 <= i < |st.db.rows|
    ensures var s := UpdateIntended(st, u, updateLink, delLink);
            i < |s.state.db.rows| && s.state.db.rows[i].birthday == st.db.rows[i].birthday
  {
    var s := Update(st, u, updateLink, delLink);
    if CacheDelete in s.calls {
      assert DomainToEntityIntended(u).birthday == NullInt;
      assert UpdateIntended(st, u, updateLink, delLink).state.db == UpdateNonZeroFields(st.db, DomainToEntityIntended(u), updateLink).state;
    }
  }

  /** As written, the same update succeeds on the database and sets the
      stored birthday of the user's row to NULL, whatever it was. */
  lemma UpdateAsWrittenErasesBirthday(st: State, u: User, updateLink: Link, delLink: Link, i: int)
    requires IsZero(u.birthday) && 0 <= i < |st.db.rows| && st.db.rows[i].id == u.id
    requires CacheDelete in Update(st, u, updateLink, delLink).calls
    ensures var s := Update(st, u, updateLink, delLink);
            i < |s.state.db.rows| && s.state.db.rows[i].birthday == NullInt
  {
    var s := Update(st, u, updateLink, delLink);
    assert s.state.db.rows[i] == Merge(st.db.rows[i], DomainToEntityAsWritten(u));
  }
}

=== FILE: user_service.dfy ===
/** userService (internal/service/user.go): sign-up with a hashed
    password, find-or-create by phone, login by account and password,
    profile lookup, and updates that never touch the sensitive columns. */
module UserService {
  import opened Base
  import opened Domain
  import opened UserDao
  import opened UserRepository
  import Redis
  import UserCache

  /** The shortest string bcrypt accepts as a hash. */
  const MinHashSize: nat := 59

  /** bcrypt.CompareHashAndPassword succeeds: the stored hash is long
      enough to be a bcrypt hash and `matches` (bcrypt's own check of a
      well-formed hash) accepts the password. */
  predicate BcryptAccepts(hash: string, password: string, matches: (string, string) -> bool)
  {
    MinHashSize <= |hash| && matches(hash, password)
  }

  /** userService.Signup: hashes the password (`hash` is what
      bcrypt.GenerateFromPassword returned) and creates the user with it. */
  function Signup(st: State, u: User, hash: Ret<string>, nowMs: int, link: Link): (s: Step<(), State>)
    ensures hash.err != Nil ==> s == Step(Ret((), hash.err), st, [])
    ensures hash.err == Nil ==> s.calls == [DaoInsert]
    ensures s.ret.err == Nil ==>
      s.state.db.rows == st.db.rows + [NewRow(st.db, CreatedRow(u.(password := hash.value)), nowMs)]
      && s.state.db.rows[|st.db.rows|].password == hash.value
    ensures var row := NewRow(st.db, CreatedRow(u.(password := hash.value)), nowMs);
      hash.err == Nil && link.Up? ==>
        && (s.ret.err == Nil <==> !Conflicts(st.db.rows, row))
        && (s.ret.err == Fail(UserDuplicate) <==> Conflicts(st.db.rows, row))
    ensures hash.err == Nil && link.Down? && link.kind != MySql(DuplicateEntry) ==> s.ret.err == Fail(link.kind)
  {
    if hash.err != Nil then Step(Ret((), hash.err), st, [])
    else Create(st, u.(password := hash.value), nowMs, link)
  }

  /** In a valid table, signing up an account no row holds, with no phone,
      succeeds once the hash is made and MySQL is reachable, and the new
      row is the only one with that account. */
  lemma SignupFreshAccountSucceeds(st: State, u: User, hash: string, nowMs: int)
    requires Valid(st.db) && u.phone == ""
    requires forall i :: 0 <= i < |st.db.rows| ==> st.db.rows[i].account != NullString(u.account, true)
    ensures var s := Signup(st, u, Ret(hash, Nil), nowMs, Up);
      && s.ret.err == Nil
      && Valid(s.state.db)
      && forall i :: 0 <= i < |s.state.db.rows| && Clash(s.state.db.rows[i].account, Nullable(u.account)) ==> i == |st.db.rows|
  {
    var row := NewRow(st.db, CreatedRow(u.(password := hash)), nowMs);
    forall i | 0 <= i < |st.db.rows| ensures !Collide(st.db.rows[i], row) {
      assert st.db.rows[i].id < st.db.autoIncrement;
    }
    InsertPreservesValid(st.db, CreatedRow(u.(password := hash)), nowMs, Up);
  }

  /** userService.FindOrCreate: the user with this phone; when there is
      none, a user holding only the phone is created (a duplicate means
      someone else just created it) and the phone is looked up again. */
  function FindOrCreate(st: State, phone: string, nowMs: int, findLink: Link, createLink: Link, rereadLink: Link)
    : (s: Step<User, State>)
    ensures s.state.cache == st.cache
    ensures s.calls == [DaoFindByPhone] || s.calls == [DaoFindByPhone, DaoInsert]
         || s.calls == [DaoFindByPhone, DaoInsert, DaoFindByPhone]
    ensures s.calls == [DaoFindByPhone] ==> s.state == st && s.ret.err != Fail(RecordNotFound)
    ensures s.calls == [DaoFindByPhone, DaoInsert] ==>
      s.ret.value == ZeroUser && s.ret.err != Nil && s.ret.err != Fail(UserDuplicate) && s.state == st
    ensures s.ret.err == Nil ==> s.ret.value.phone == phone
    ensures var f := UserRepository.FindByPhone(st, phone, findLink);
            var c := Create(st, ZeroUser.(phone := phone), nowMs, createLink);
      && (f.ret.err != Fail(RecordNotFound) ==> s == f)
      && (f.ret.err == Fail(RecordNotFound) && c.ret.err != Nil && c.ret.err != Fail(UserDuplicate) ==>
            s == Step(Ret(ZeroUser, c.ret.err), c.state, [DaoFindByPhone, DaoInsert]))
      && (f.ret.err == Fail(RecordNotFound) && (c.ret.err == Nil || c.ret.err == Fail(UserDuplicate)) ==>
            s.ret == UserRepository.FindByPhone(c.state, phone, rereadLink).ret
            && s.state == UserRepository.FindByPhone(c.state, phone, rereadLink).state)
  {
    var f := UserRepository.FindByPhone(st, phone, findLink);
    if f.ret.err != Fail(RecordNotFound) then f
    else
      var c := Create(st, ZeroUser.(phone := phone), nowMs, createLink);
      if c.ret.err != Nil && c.ret.err != Fail(UserDuplicate) then Step(Ret(ZeroUser, c.ret.err), c.state, [DaoFindByPhone, DaoInsert])
      else
        var r := UserRepository.FindByPhone(c.state, phone, rereadLink);
        Step(r.ret, r.state, [DaoFindByPhone, DaoInsert, DaoFindByPhone])
  }

  /** With the database reachable and a non-empty phone, FindOrCreate
      succeeds, leaves a valid table, and afterwards exactly one row holds
      that phone: the one returned. */
  lemma FindOrCreateSucceeds(st: State, phone: string, nowMs: int)
    requires Valid(st.db) && phone != ""
    ensures var s := FindOrCreate(st, phone, nowMs, Up, Up, Up);
      && s.ret.err == Nil
      && Valid(s.state.db)
      && exists r :: r in s.state.db.rows && r.phone == NullString(phone, true) && s.ret.value == EntityToDomain(r)
  {
    var s := FindOrCreate(st, phone, nowMs, Up, Up, Up);
    var f := UserRepository.FindByPhone(st, phone, Up);
    if f.ret.err == Fail(RecordNotFound) {
      var u := ZeroUser.(phone := phone);
      InsertPreservesValid(st.db, CreatedRow(u), nowMs, Up);
      var c := Create(st, u, nowMs, Up);
      if c.ret.err == Nil {
        var row := NewRow(st.db, CreatedRow(u), nowMs);
        assert c.state.db.rows[|st.db.rows|] == row;
        assert row in c.state.db.rows && row.phone == NullString(phone, true);
      }
    }
  }

  /** Once FindOrCreate has succeeded, asking again for the same phone
      finds the same user with a single lookup and changes nothing. */
  lemma FindOrCreateIdempotent(st: State, phone: string, nowMs: int, laterMs: int,
                               findLink: Link, createLink: Link, rereadLink: Link)
    requires FindOrCreate(st, phone, nowMs, findLink, createLink, rereadLink).ret.err == Nil
    ensures var first := FindOrCreate(st, phone, nowMs, findLink, createLink, rereadLink);
            FindOrCreate(first.state, phone, laterMs, Up, Up, Up) == Step(first.ret, first.state, [DaoFindByPhone])
  {
    var first := FindOrCreate(st, phone, nowMs, findLink, createLink, rereadLink);
    var again := UserRepository.FindByPhone(first.state, phone, Up);
    assert first.ret.value.phone == phone;
    assert again.ret.err == Nil;
    var x :| x in first.state.db.rows && first.ret.value == EntityToDomain(x);
    assert first.ret == UserRepository.FindByPhone(first.state, phone, Up).ret;
  }

  /** userService.Login: the user with this account when bcrypt accepts
      the password; every failure, including an unreachable database, is
      ErrInvalidUserOrPassword with the zero user. */
  function Login(st: State, account: string, password: string, link: Link, matches: (string, string) -> bool)
    : (s: Step<User, State>)
    ensures s.state == st && s.calls == [DaoFindByAccount]
    ensures s.ret.err == Nil || s.ret == Ret(ZeroUser, Fail(InvalidUserOrPassword))
    ensures s.ret.err == Nil <==>
      exists r :: r in st.db.rows && r.account == NullString(account, true) && link.Up?
        && s.ret.value == EntityToDomain(r) && BcryptAccepts(r.password, password, matches)
  {
    var f := UserRepository.FindByAccount(st, account, link);
    if f.ret.err == Fail(RecordNotFound) then Step(Ret(ZeroUser, Fail(InvalidUserOrPassword)), st, f.calls)
    else if !BcryptAccepts(f.ret.value.password, password, matches) then
      Step(Ret(ZeroUser, Fail(InvalidUserOrPassword)), st, f.calls)
    else Step(Ret(f.ret.value, Nil), st, f.calls)
  }

  /** In a valid table, login for a stored account succeeds exactly when
      bcrypt accepts the password against that row's hash. */
  lemma LoginIff(st: State, row: UserRow, password: string, matches: (string, string) -> bool)
    requires Valid(st.db) && row in st.db.rows && row.account.valid
    ensures Login(st, row.account.s, password, Up, matches).ret.err == Nil <==> BcryptAccepts(row.password, password, matches)
    ensures Login(st, row.account.s, password, Up, matches).ret.err == Nil ==>
      Login(st, row.account.s, password, Up, matches).ret.value == EntityToDomain(row)
  {
    FindsUniqueRow(st.db, row);
  }

  /** userService.UpdateNonSensitiveInfo: the update with account, phone
      and password blanked, so that those columns are never written. */
  function UpdateNonSensitiveInfo(st: State, u: User, updateLink: Link, delLink: Link): (s: Step<(), State>)
    ensures s.ret.err == Nil ==> |s.state.db.rows| == |st.db.rows|
    ensures forall i :: 0 <= i < |st.db.rows| && i < |s.state.db.rows| ==>
      && s.state.db.rows[i].account == st.db.rows[i].account
      && s.state.db.rows[i].phone == st.db.rows[i].phone
      && s.state.db.rows[i].password == st.db.rows[i].password
    ensures s.ret.err == Nil ==> forall i :: 0 <= i < |st.db.rows| ==>
      s.state.db.rows[i] == (if st.db.rows[i].id == u.id
                             then Merge(st.db.rows[i], DomainToEntityAsWritten(u.(account := "", phone := "", password := "")))
                             else st.db.rows[i])
    ensures s.ret.err == Nil ==> UserCache.Key(u.id) !in s.state.cache
  {
    var blanked := u.(account := "", phone := "", password := "");
    var s := Update(st, blanked, updateLink, delLink);
    assert forall i :: 0 <= i < |st.db.rows| && i < |s.state.db.rows| ==>
      s.state.db.rows[i] == st.db.rows[i] || s.state.db.rows[i] == Merge(st.db.rows[i], DomainToEntityAsWritten(blanked));
    s
  }

  /** userService.Profile: the repository's FindById. */
  function Profile(st: State, id: int, now: int, getLink: Link, findLink: Link, setLink: Link): (s: Step<User, State>)
    ensures s.state.db == st.db
    ensures s.ret.err != Nil ==> s.ret.value == ZeroUser
    ensures getLink.Up? && findLink.Up? && StoreView(st.db, id).None? && !UserCacheHolds(st, id, now) ==>
      s.ret == Ret(ZeroUser, Fail(RecordNotFound))
    ensures getLink.Up? && findLink.Up? && StoreView(st.db, id).Some? && !UserCacheHolds(st, id, now) ==>
      s.ret == Ret(StoreView(st.db, id).value, Nil)
    ensures getLink.Up? && UserCacheHolds(st, id, now) ==> s.ret == Ret(st.cache[UserCache.Key(id)].value, Nil)
  {
    UserRepository.FindById(st, id, now, getLink, findLink, setLink)
  }

  /** With the cache coherent and both stores reachable, the profile is
      exactly the stored user, or not-found when there is none. */
  lemma ProfileAgreesWithStore(st: State, id: int, now: int, setLink: Link)
    requires Coherent(st, now)
    ensures var s := Profile(st, id, now, Up, Up, setLink);
      && (StoreView(st.db, id).Some? ==> s.ret == Ret(StoreView(st.db, id).value, Nil))
      && (StoreView(st.db, id).None? ==> s.ret == Ret(ZeroUser, Fail(RecordNotFound)))
  {
    FindByIdAgreesWithStore(st, id, now, setLink);
  }

  predicate UserCacheHolds(st: State, id: int, now: int)
  {
    Redis.Live(st.cache, UserCache.Key(id), now)
  }
}

=== FILE: web.dfy ===
/** What the HTTP handlers have in common (internal/web/types.go): the
    response envelope's business codes, the calls a handler makes into the
    services and the JWT helper, and the reply it writes. */
module Web {
  import opened Base
  import opened Clock
  import opened Domain

  const StatusOK: int := 200
  const StatusUnauthorized: int := 401

  /** Result.Code values. */
  const CodeOK: int := 10000
  const CodeEditOK: int := 1000     // Edit's success code
  const CodeLogin: int := 14001     // log in again / wrong account or password
  const CodeBadInput: int := 14002  // the request was refused
  const CodeTooOften: int := 14003  // SMS requested too often
  const CodeFailure: int := 25001   // server-side failure

  /** A call a handler makes, with the arguments that matter. */
  datatype Action =
    | SendCode(biz: string, phone: string)
    | VerifyCode(biz: string, phone: string, code: string)
    | FindOrCreateCall(phone: string)
    | SignupCall(account: string, password: string)
    | LoginCall(account: string, password: string)
    | SetLoginToken(uid: int)
    | SetJwtToken(ssid: string, uid: int)
    | CheckSession(ssid: string)
    | UpdateInfoCall(user: User)
    | GetByDateCall(biz: string, uid: int, date: DateTime)
    | GetByDateRangeCall(uid: int, start: DateTime, end: DateTime)

  /** The HTTP status, the Result code, the Result data, and the calls made
      while handling the request, in order. */
  datatype Reply<D> = Reply(status: int, code: int, data: Option<D>, calls: seq<Action>)
}
